=== FILE: README.md ===
# FREYA tool-call validator, in Dafny

FREYA is a desktop assistant. A chat model proposes tool calls (write a file,
delete a path, push to git, ...) and `TRMValidator` decides whether they may
run. This project models that validator and proves properties of the model:

- **Rules** — `_check_rules`, the static rule engine for one tool call:
  - the deny-list of system directories over the string values of `path`,
    `filename` and `target_path`, compared as a raw prefix of the upper-cased,
    normalised path;
  - refusal to delete a root alias;
  - refusal of `write_file` onto an existing source-code file;
  - the warnings for sensitive paths, directory deletion and pushes to `main`;
  - the per-tool table of required arguments.
- **Review** — how the replies of the optional local review model are read.
  The replies themselves are oracles. The reading is exact: stripping, cutting
  after `</think>`, `REJECTED` taking precedence over `WARNING`/`SUGGEST`, and
  the default texts.
- **Validator**:
  - `validate` for one call: the rules are authoritative, then the model is
    consulted for `modify_file` and `git_push`;
  - `validate_plan` for a whole plan: the per-step partition into a corrected
    plan and blocked steps, the plan review, and the rebuilt feedback;
  - `format_validation_result`.
- **Examples** — the self-test cases at the bottom of `trm_validator.py`,
  stated as lemmas with the verdicts the code gives.
- **Factorial** — the iterative `factorial` of `test.py` and the recursive
  `Factoriel.compute` of `factorial.py`. Both are proved equal to one
  reference product.
- **Agent** — the two pure pieces of `agent.py`: the sliding window over the
  conversation memory and the keyword rule that picks `tool_choice`.

Modelling choices:

- A Python exception becomes the `Failure` side of a `Result`.
- `os.path.normpath`, `os.path.exists` and `os.path.isdir` are the fields of a
  `Platform`. This includes `isdir` on an integer, which Python reads as a file
  descriptor. An integer outside the C `int` range makes `isdir` raise
  `OverflowError`, which it does not catch; any other non-path value raises
  `TypeError`.
- A loaded review model is an `Option<Llm>` whose two fields give the reply
  for a call or a plan.
- `str.upper`/`str.lower` are the one-to-one Latin-1 case maps. `µ` and `ÿ`
  are left unchanged, because their Python upper cases (`Μ`, `Ÿ`) lie
  outside Latin-1.
- `str.strip` uses exactly the characters Python's `str.isspace` accepts.
- Python integers are unbounded, like Dafny's `int`.

Behaviour of the code worth knowing before reading the contracts:

- An empty `steps` list is approved, with no corrected plan. Only a missing
  `steps` key, or a missing or empty plan, is rejected.
- The checks run in this order:
  1. deny-list;
  2. root deletion and the directory warning;
  3. code overwrite;
  4. `main` push warning;
  5. required arguments.

  The first refusal ends the check. It carries the warnings gathered before it.
- The deny-list is a plain string prefix test, so `C:\WindowsOld` is refused
  too.
- A refusal or suggestion from the plan review never reaches the feedback:
  the feedback is always rebuilt from the blocked steps and warnings. See
  Findings.

## Model

| member | source | states |
|---|---|---|
| Rules.FirstProtectedPrefix | trm_validator.py:109-113 | the entry found is the first deny-list entry whose upper-cased form prefixes the normalised path; none is found exactly when no entry prefixes it |
| Rules.DenyEntry | trm_validator.py:102-113 | the entry that refuses one argument is a deny-list entry its string value starts with; there is one exactly when some entry matches |
| Rules.ScanPathArgs | trm_validator.py:100-117 | a refusal of the path-argument loop names a deny-list entry, and the loop gathers at most one warning per path argument |
| Rules.ScanDeniesExactly | trm_validator.py:100-113 | the path-argument loop refuses exactly when some path argument holds a string with a deny-listed prefix; the refusal is for the first such argument in `path`, `filename`, `target_path` order and names that argument's first matching entry |
| Rules.ScanWarnsExactly | trm_validator.py:115-117 | when nothing is denied, every path argument mentioning WINDOWS or SYSTEM32 is warned about, and every warning names such an argument |
| Rules.ScanWarnsInOrder | trm_validator.py:101-117 | the loop's warnings are `SensitiveWarnings`, one per sensitive string argument in `path`/`filename`/`target_path` order: all of them when nothing is denied, and on a refusal only those of the arguments before the first refused one (`FirstRefused`), whose first matching entry is named |
| Rules.FirstRefusedIsFirst | trm_validator.py:101-113 | `FirstRefused` is the first refused argument position: every earlier argument is let through, and the one at it is refused |
| Rules.SensitiveWarningsOfPrefix | trm_validator.py:115-117 | the warnings of the first `n` arguments are the first argument's followed by those of the next `n - 1` |
| Rules.ScanSeesOnlyStrings | trm_validator.py:101-104 | two argument maps that agree on which path arguments are strings, and on those strings, get the same deny-list outcome and warnings |
| Rules.DenyListIgnoresNonStrings | trm_validator.py:102-104 | a path argument whose value is not a string is treated exactly as if it were absent |
| Rules.FirstProtectedPrefixSkipsX86 | trm_validator.py:15-21 | the `(x86)` entry is never the one reported, because the `Program Files` entry before it is its prefix |
| Rules.ScanNeverNamesX86 | trm_validator.py:109-113 | no refusal of the path loop ever names the `(x86)` entry |
| Rules.FirstMissing | trm_validator.py:159-163 | the position found is the first required key that is absent or falsy; none is found exactly when every key is present and truthy |
| Rules.FirstMissingAgrees | trm_validator.py:159-160 | the first missing key depends only on which keys are present and truthy |
| Rules.RequiredStage | trm_validator.py:150-165 | the required-argument check never raises and keeps the warnings; it approves exactly when no required key is missing, otherwise its reason names the first missing key |
| Rules.CheckRequired | trm_validator.py:149-165 | the required-argument check never raises and adds no warning; its verdict approves exactly when its reason is empty, and a refusal's reason opens with the no-entry sign |
| Rules.CheckPush | trm_validator.py:143-165 | from the push check on nothing raises; the verdict approves exactly when its reason is empty, a refusal's reason opens with the no-entry sign, and the warnings gathered before stay in front |
| Rules.CheckWrite | trm_validator.py:132-165 | from the overwrite check on the only exception is `AttributeError`, for `write_file` alone; a verdict approves exactly when its reason is empty and keeps the earlier warnings in front |
| Rules.CheckDelete | trm_validator.py:119-165 | after the deny-list the only exceptions are `TypeError` or `OverflowError` for `delete_path` and `AttributeError` for `write_file`; a verdict approves exactly when its reason is empty and keeps the path warnings in front |
| Rules.StagesRaise | trm_validator.py:119-141 | the checks after the deny-list raise exactly when `isdir` raises on the delete target (a value of the wrong type, or an integer outside the C `int` range) or the `write_file` filename is not a string |
| Rules.StagesReachRequired | trm_validator.py:119-163 | when no root deletion, code overwrite or raising value intervenes, the verdict is the required-argument check's, carrying the directory and `main` warnings |
| Rules.CheckRules | trm_validator.py:95-165 | the rule check raises only `TypeError` or `OverflowError` on `delete_path` or `AttributeError` on `write_file`; a returned verdict approves exactly when its reason is empty, and every refusal reason opens with the no-entry sign |
| Rules.CheckRulesRaises | trm_validator.py:95-165 | the rule check raises exactly when no path is deny-listed and `isdir` raises on the delete target (wrong type, or an integer outside the C `int` range) or the write filename is not a string |
| Rules.CheckRulesApproval | trm_validator.py:95-165 | a returned verdict approves exactly when no path is denied, no root is deleted, no code file is overwritten and no required argument is missing; it approves exactly when its reason is empty |
| Rules.CheckRulesDenyList | trm_validator.py:100-113 | a deny-listed path is refused, whatever the tool; the reason names the first matching entry of the first refused argument in `path`, `filename`, `target_path` order |
| Rules.DeniedVerdict | trm_validator.py:100-113 | whatever the tool, a refusing deny-list loop is the whole check's verdict: refused with the entry's reason and the warnings gathered before it, which are exactly the sensitive-path warnings of the arguments ahead of the first refused one, in order |
| Rules.CheckRulesRootDeletion | trm_validator.py:120-125 | `delete_path` of a raw root alias is refused with the root-deletion reason, keeping the path warnings |
| Rules.CheckRulesOverwrite | trm_validator.py:132-141 | `write_file` onto an existing code file is refused with a reason that names the file and points to `modify_file` with `append`, carrying exactly the scan's warnings (one per sensitive path argument, in order) and no other |
| Rules.CheckRulesMissingArgument | trm_validator.py:149-163 | with no earlier refusal, a missing or falsy required key refuses, naming the first such key in the table's order |
| Rules.CheckRulesWarnings | trm_validator.py:115-147 | the sensitive-path, directory-deletion and `main`-push warnings are emitted when their conditions hold, and a push to `main` is still approved |
| Rules.ModifyFileIgnoresSearchText | trm_validator.py:155 | the value of `search_text`, present or not, never changes the verdict on `modify_file` |
| Text.LastPiece | trm_validator.py:196 | `split(sep)[-1]` is a suffix of the text holding no `sep`: the whole text when `sep` does not occur, otherwise exactly what follows an occurrence of `sep` |
| Text.LastPieceAfterLast | trm_validator.py:196 | for a separator that cannot overlap itself, the last piece is what follows the last occurrence |
| Text.Strip | trm_validator.py:192 | `strip()` keeps a slice of the text with only whitespace cut off on either side; neither end of the result is whitespace, and a text without whitespace is unchanged |
| Text.StripKeepsStripped | trm_validator.py:196 | stripping an already stripped text changes nothing |
| Text.RemoveCharCounts | trm_validator.py:202 | `replace(":", "")` drops every colon and keeps every other character as often as it occurred |
| Text.RemoveCharConcat | trm_validator.py:202 | removal works piecewise over a concatenation, so the remaining characters keep their order |
| Review.Cleaned | trm_validator.py:192-196 | the cleaned reply is stripped; a reply that mentions no `<think>` in any case, or holds no `</think>`, is only stripped; otherwise the result holds no `</think>` and is the stripped text after the last `</think>` |
| Review.AfterThink | trm_validator.py:195-196 | on a stripped reply: unchanged when it holds no `</think>`, else the stripped text after the last `</think>`; never holds `</think>` |
| Review.After | trm_validator.py:202 | the cut text has no colon, no leading or trailing whitespace, and only characters of the reply; with no marker it is the whole reply without colons, stripped; otherwise it is the text after an occurrence of the marker, without colons, stripped |
| Review.AfterLast | trm_validator.py:202 | for a marker that cannot overlap itself, the cut text follows the marker's last occurrence |
| Review.MarkersOverlapFree | trm_validator.py:199-206 | `REJECTED`, `WARNING` and `SUGGEST` cannot overlap themselves, so each cut follows the marker's last occurrence |
| Review.ReadAction | trm_validator.py:199-206 | on an upper-case reply: refused exactly when it holds REJECTED, with the text after it as reason and the default reason exactly when that text is empty; otherwise a warning exactly when it holds WARNING, with the same rule for the default warning |
| Review.ReviewAction | trm_validator.py:192-211 | a failed call approves with a failure warning; a reply refuses exactly when its upper-cased cleaned text contains REJECTED, with no warnings and as reason the text after REJECTED, or the default reason exactly when that text is empty; a warning is the text after WARNING, or the default warning exactly when that text is empty |
| Review.ReviewActionWarning | trm_validator.py:204-206 | an approving reply warns exactly when it mentions WARNING, and the warning is non-empty and colon-free |
| Review.ReviewActionReasonIsUpperCase | trm_validator.py:197-203 | a refusal's reason is the default one or is already upper-case |
| Review.ReviewPlan | trm_validator.py:346-361 | a failed call approves with a failure warning; a reply refuses exactly when its upper-cased text contains REJECTED, and the feedback is then the text after `REJECTED` in the cleaned reply as written; suggestions appear only for SUGGEST and are the text after `SUGGEST` in the reply as written, colon-free |
| Validator.Validate | trm_validator.py:79-93 | without a model, or for tools other than `modify_file`/`git_push`, the verdict is the rule check's; a rule refusal or exception is returned unchanged; an approval implies rule approval and extends the rule warnings; a failed model call changes neither whether the call raises nor whether it is approved; with a model loaded, a `modify_file`/`git_push` call the rules approve is refused with the model's verdict exactly when the review refuses, and otherwise approved with the rule warnings followed by the review's |
| Validator.ScanSteps | trm_validator.py:252-271 | every step lands in exactly one list: kept plus blocked steps number the plan's steps, and every kept step is a step of the plan |
| Validator.ScanStepsRaises | trm_validator.py:254-259 | the plan loop raises exactly when the rule check raises on some step |
| Validator.ScanStepsCounts | trm_validator.py:261-271 | the corrected steps are as many as the accepted steps, and corrected plus blocked steps number the plan's steps |
| Validator.ScanStepsKeeps | trm_validator.py:268-270 | every accepted step appears in the corrected plan at the position given by the number of accepted steps before it |
| Validator.ScanStepsBlocks | trm_validator.py:261-267 | every refused step appears among the blocked steps with its 1-based index, action and reason, at the position given by the refused steps before it |
| Validator.ScanStepsDecides | trm_validator.py:258-270 | when no rule check raises, every step is accepted or refused |
| Validator.ScanStepsKeepsAll | trm_validator.py:268-270 | every accepted step is in the corrected plan, after exactly the accepted steps before it |
| Validator.ScanStepsBlocksAll | trm_validator.py:261-267 | every refused step's entry is in the blocked list, after exactly the refused steps before it |
| Validator.ScanStepsPartitions | trm_validator.py:252-271 | the loop partitions the steps: each is accepted or refused, the counts add up, and the accepted ones are the corrected plan in order |
| Validator.BlockedStepsAscend | trm_validator.py:262-266 | blocked-step indices are 1-based, in range, strictly increasing, and each names a refused step |
| Validator.WarningsFromAcceptedSteps | trm_validator.py:268-271 | the warnings are the accepted steps' rule warnings concatenated in step order, repeats kept (`AcceptedWarnings`, read front to back); a warning is kept exactly when some accepted step's rule check gave it; refused steps contribute none |
| Validator.ScanStepsWarnings | trm_validator.py:268-271 | the loop's warnings equal the independent front-to-back concatenation `AcceptedWarnings` of the accepted steps' warnings |
| Validator.AcceptedWarningsSnoc | trm_validator.py:268-271 | one more step at the end of the plan adds its warnings at the end, exactly when it is accepted |
| Validator.PlanFeedback | trm_validator.py:296-306 | the rebuilt feedback is never empty and opens with the warning sign exactly when steps were blocked |
| Validator.PlanFeedbackOpening | trm_validator.py:297-306 | the feedback opens with the partial-rejection header exactly when steps were blocked, and with the success mark otherwise |
| Validator.PlanFeedbackListsBlocked | trm_validator.py:297-302 | a partial-rejection feedback contains a line for every blocked step and the count of remaining valid steps |
| Validator.PlanFeedbackListsWarnings | trm_validator.py:303-304 | with no blocked steps, the feedback contains every warning |
| Validator.ValidatePlan | trm_validator.py:215-308 | an approved plan has no blocked step; a corrected plan is never empty; blocked plus corrected steps number the plan's steps; the feedback is never empty |
| Validator.ValidatePlanStructural | trm_validator.py:247-250 | the fixed invalid-plan verdict is given exactly when the plan is missing or has no `steps` key |
| Validator.ValidatePlanEmptySteps | trm_validator.py:239-306 | an empty `steps` list is approved with no corrected plan, no blocked steps and the ready-to-run feedback |
| Validator.ValidatePlanPartitions | trm_validator.py:252-294 | a plan raises exactly when a step's rule check does; otherwise the blocked steps are the loop's, the corrected plan is present exactly when some step passed and holds the accepted steps with the summary or its default, the two counts sum to the plan's length, and approval implies nothing was blocked |
| Validator.ValidatePlanFeedback | trm_validator.py:270-306 | the feedback of a plan with steps is `PlanFeedback` of the result's own blocked steps, the number of steps the rules accepted and the result's warnings; the warnings are the accepted steps' in step order followed by an approving review's |
| Validator.ValidatePlanFeedbackShows | trm_validator.py:296-306 | the result's feedback names every blocked step and the number of valid steps left when steps were blocked, and contains every warning otherwise |
| Validator.ValidatePlanReview | trm_validator.py:273-288 | without a model, with a failed review call, or with no high-risk action, the plan is approved exactly when nothing was blocked; a refused plan keeps only the rule warnings |
| Validator.ValidatePlanReportingReview | trm_validator.py:279-306 | the corrected plan verdict equals the as-written one apart from the feedback; a plan refused with no blocked step was refused by the model, and its feedback is the model's reason or the default rejection text; the feedback is never empty |
| Validator.FormatValidationResult | trm_validator.py:365-374 | the text is never empty and opens with the cross mark exactly when the verdict refuses |
| Validator.FormatValidationResultShows | trm_validator.py:365-374 | a refusal shows the cross mark and its reason; an approval opens with the success line and shows every warning; the separator is backslash-n, so no line break appears unless a reason or warning brings one |
| Examples.WriteNewCodeFile | trm_validator.py:412 | writing a new `test.py` is approved with no warnings |
| Examples.OverwriteExistingCodeFile | trm_validator.py:132-141 | the same call onto an existing `test.py` is refused with the overwrite reason, whatever the model |
| Examples.DeleteSystem32 | trm_validator.py:413 | deleting `C:\Windows\System32` is refused, naming `C:\Windows` |
| Examples.DeleteWindowsOld | trm_validator.py:109-113 | deleting `C:\WindowsOld` is refused too, since the deny-list is a string prefix test |
| Examples.DeleteDesktopFile | trm_validator.py:414 | deleting a desktop file is approved with no warnings, whatever the model |
| Examples.DeleteDriveRoot | trm_validator.py:415 | deleting `C:\` is refused as a root deletion |
| Examples.HugeDescriptorRaises | trm_validator.py:119-129 | deleting by the integer path 2^40 raises `OverflowError` from `os.path.isdir`, on any machine and whatever the model |
| Examples.ReadFile | trm_validator.py:416 | reading `agent.py` is approved |
| Examples.ReadFileWithoutName | trm_validator.py:417 | reading with no arguments is refused for the missing `filename` |
| Examples.PushMain | trm_validator.py:418 | with no model loaded, a push to `main` is approved with the `main` warning |
| Examples.PlanListDesktop | trm_validator.py:444-454 | the one-step listing plan is approved whole, with its summary and the ready-to-run feedback |
| Examples.PlanDeleteSystem32 | trm_validator.py:456-466 | the system deletion plan is refused, with step 1 blocked and no corrected plan |
| Examples.MixedScan | trm_validator.py:254-271 | a three-step loop that refuses only the middle step keeps the other two in order and blocks step 2 |
| Examples.PlanMixed | trm_validator.py:468-480 | the mixed plan is refused, keeps the listing and the temp-file deletion in order, and blocks step 2 |
| Examples.PlanWithoutSteps | trm_validator.py:482-487 | a plan without `steps` gets the fixed invalid-plan verdict |
| Examples.LowerCaseRejection | trm_validator.py:352-356 | a lower-case `rejected` still refuses the plan, and since the reply is cut at the upper-case marker, the whole reply becomes the feedback |
| Examples.BareRefusal | trm_validator.py:354-356 | a bare `REJECTED` refuses the plan with an empty feedback |
| Examples.RefusedReviewReadsAsReady | trm_validator.py:279-306 | whenever every step passes cleanly and the model refuses, the plan comes back refused with no blocked step and the ready-to-run feedback |
| Examples.RefusedPlanReadsAsReady | trm_validator.py:279-306 | the push to `dev` refused by the model is reported as ready to run |
| Examples.RefusedPlanReportsReason | trm_validator.py:279-283 | with the correction, the same plan's feedback is the default rejection text |
| Factorial.IterativeFactorial | test.py:3-9 | a negative input raises `ValueError` with the source's message; otherwise the result is the product `2 * ... * n`, is at least 1, and equals the recursive `compute` |
| Factorial.Compute | factorial.py:5-10 | for every `n >= 0` the result is at least 1 and at least `n` |
| Factorial.FactorialBase | test.py:6-9 | `0!` and `1!` are 1 for both the loop's product and the recursion |
| Factorial.FactorialRecurrence | test.py:7-8 | `n! == n * (n - 1)!` for the product, for every `n >= 1` |
| Factorial.ComputeIsProduct | factorial.py:7-10 | the recursion equals the product `2 * ... * n` for every `n >= 0` |
| Agent.SliceFrom | agent.py:288 | Python's `s[start:]` is a suffix of `s` and no longer than it |
| Agent.CleanupMemory | agent.py:284-288 | the cleaned memory is a suffix of the old one, of length the smaller of its length and the window, and is unchanged when it already fits |
| Agent.CleanupIdempotent | agent.py:284-288 | cleaning twice is cleaning once |
| Agent.CleanupKeepsLatest | agent.py:286-288 | truncation keeps exactly the last `maxLen` entries, in order |
| Agent.Remember | agent.py:315-319 | after appending a user message and cleaning, the memory holds one to five entries, ends with the message, and keeps the latest earlier entries |
| Agent.ChooseTool | agent.py:322-328 | the choice is `required` or `auto` |
| Agent.ToolChoice | agent.py:322-328 | the choice is `required` exactly when a listed stem occurs in the lower-cased message, and `auto` exactly when none does |
| Agent.ToolChoiceIgnoresCase | agent.py:323 | messages with the same lower case get the same choice |
| Agent.CorrectedToolChoice | agent.py:322-328 | with the corrected stems, `required` exactly when one of them occurs in the lower-cased message |
| Agent.CorrectedCatchesMore | agent.py:322 | every message the listed stems send to `required` is still sent there with the corrected stems |
| Agent.DeleteRequestLeftToModel | agent.py:322-323 | `supprime` (delete) contains none of the listed stems and gets `auto` |
| Agent.DeleteRequestNeedsTool | agent.py:322-323 | with the corrected stems, `supprime` gets `required` |

## Left out

- Loading the local model and calling it (trm_validator.py:35-58, 184-190,
  338-344). The prompt texts are also left out. A model is present or not, and
  its reply for given inputs is an arbitrary `Completed` text or `CallFailed`
  error.
- The `get_validator` singleton and `validate_tool_call` (trm_validator.py:377-398):
  ambient mutable state around `validate`.
- `os.path.normpath`, `os.path.exists` and `os.path.isdir` are uninterpreted
  fields of `Platform`.
- Case mapping outside Latin-1 is not modelled: `str.upper`/`str.lower` map
  only `a`-`z`, `à`-`þ` and their capitals. Python also maps other scripts,
  upper-cases `µ` to `Μ` and `ÿ` to `Ÿ`, and expands `ß` to `SS`.
- The `modified_args` key of `validate`'s result (trm_validator.py:75) is always
  `None` and is not part of `Verdict`.
- Plans whose `steps` is not a list, steps that are not dicts, a non-string
  `action`, and a non-dict `args` are not modelled. They are either raising or
  type-confused paths in Python. A `Step` has an optional action name and
  optional argument map.
- JSON numbers that are floats are modelled as `real`; NaN is not modelled.
- The printing loops of the self-tests (trm_validator.py:421-433, 490 onward)
  are not modelled; their cases are the Examples lemmas.
- Factorial.Compute: requires `n >= 0`, because on a negative `n` the recursion
  never reaches its base case and Python eventually raises `RecursionError`.
  `factorial` on a non-integer is not modelled either.
- Agent.Remember: models only the user-message append and cleanup at the start
  of `respond`. The assistant and tool messages appended later in `respond`
  (agent.py:354-383) are added without cleanup, so the memory may exceed five
  entries between turns.
- The rest of `agent.py` is not modelled: tool dispatch, the tool schemas, the
  chat-model calls and planning. The rest of the repository (tools.py, the
  network monitor, the REPL, the HTTP client and the manual test scripts) is
  I/O and is not part of this model.

## Findings

| source | as written | input that shows it | evidently intended | confidence | as-written member | corrected member |
|---|---|---|---|---|---|---|
| trm_validator.py:279-306 | the plan review's refusal text (line 283) and suggestion (line 287) are stored in `feedback`, then unconditionally replaced at lines 297-306 | a plan pushing to `dev`, reviewed by a model answering `REJECTED`: the plan is refused with no blocked step and the feedback "Plan validé - Prêt pour exécution" | a plan refused by the review reports the refusal: the model's reason, or "Plan rejeté par TRM" when that reason is empty. The correction changes two things: it drops the overwrite at lines 297-306, and it makes line 283's default reachable, which it is not as written because line 310 always sets `feedback` to `""`, so `.get` never falls back | high; not executed | Examples.RefusedPlanReadsAsReady | Validator.ValidatePlanReportingReview |
| agent.py:322 | the stem `supprima` matches only a rare past-tense form of "supprimer" | the message `supprime` (delete) gets `tool_choice` `auto`, unlike the other editing verbs | the stem `supprim`, so that delete requests require a tool | medium; not executed | Agent.DeleteRequestLeftToModel | Agent.DeleteRequestNeedsTool |

=== FILE: agent.dfy ===
/**
 * The two pure pieces of the natural-language agent in `agent.py`: the
 * sliding window that bounds the conversation memory, and the keyword rule
 * that decides whether the chat model must call a tool. Messages are kept
 * abstract (`M`); the model calls, the prompt and the tool dispatch are
 * outside this model.
 */
module Agent {
  import opened Text

  /** `max_memory_length` as the agent sets it. */
  const MaxMemoryLength: nat := 5

  /**
   * Python's `s[start:]` for any integer `start`: a negative start counts
   * from the end and both ends are clamped to the sequence. `-0` is `0`, so
   * `s[-0:]` is the whole sequence.
   */
  function SliceFrom<M>(s: seq<M>, start: int): (r: seq<M>)
    ensures |r| <= |s| && EndsWith(s, r)
  {
    var k := if start < 0 then (if |s| + start < 0 then 0 else |s| + start)
             else (if start > |s| then |s| else start);
    s[k..]
  }

  /** `_cleanup_memory` with window `maxLen`: a memory longer than the window is cut to `memory[-maxLen:]`. */
  function CleanupMemory<M>(memory: seq<M>, maxLen: nat): (r: seq<M>)
    ensures EndsWith(memory, r)
    ensures maxLen > 0 ==> |r| == if |memory| <= maxLen then |memory| else maxLen
    ensures |memory| <= maxLen ==> r == memory
    ensures maxLen == 0 ==> r == memory
  {
    if |memory| > maxLen then SliceFrom(memory, -(maxLen as int)) else memory
  }

  /** A second cleanup with the same window changes nothing. */
  lemma CleanupIdempotent<M>(memory: seq<M>, maxLen: nat)
    ensures CleanupMemory(CleanupMemory(memory, maxLen), maxLen) == CleanupMemory(memory, maxLen)
  {
  }

  /** Truncation keeps exactly the last `maxLen` entries, each at its shifted position, in order. */
  lemma CleanupKeepsLatest<M>(memory: seq<M>, maxLen: nat)
    requires 0 < maxLen < |memory|
    ensures var r := CleanupMemory(memory, maxLen);
      |r| == maxLen && forall k :: 0 <= k < maxLen ==> r[k] == memory[|memory| - maxLen + k]
  {
  }

  /**
   * The start of `respond`: the user's message is appended and the memory
   * cleaned. The result holds at most five entries and ends with the message.
   */
  function Remember<M>(memory: seq<M>, message: M): (r: seq<M>)
    ensures 1 <= |r| <= MaxMemoryLength && r[|r| - 1] == message
    ensures |memory| < MaxMemoryLength ==> r == memory + [message]
    ensures |memory| >= MaxMemoryLength ==> r[..|r| - 1] == memory[|memory| - (MaxMemoryLength - 1)..]
  {
    CleanupMemory(memory + [message], MaxMemoryLength)
  }

  /** The stems whose presence in the lower-cased message makes a tool call mandatory. */
  const ToolKeywords: seq<string> :=
    ["modifi", "rajoute", "ajoute", "change", "remplace", "crée", "écris", "insère", "supprima", "dele", "instal", "pip"]

  /** `any(keyword in message.lower() for keyword in keywords)`, for a given keyword list. */
  predicate MentionsAny(message: string, keywords: seq<string>) {
    exists k :: 0 <= k < |keywords| && Contains(Lower(message), keywords[k])
  }

  /** `tool_choice`: `"required"` when the message needs a tool, `"auto"` otherwise. */
  function ChooseTool(message: string, keywords: seq<string>): (r: string)
    ensures r == "required" || r == "auto"
  {
    if MentionsAny(message, keywords) then "required" else "auto"
  }

  /** `respond`'s rule with the stems as written. */
  function ToolChoice(message: string): (r: string)
    ensures r == "required" <==> exists k :: 0 <= k < |ToolKeywords| && Contains(Lower(message), ToolKeywords[k])
    ensures r == "auto" <==> forall k :: 0 <= k < |ToolKeywords| ==> !Contains(Lower(message), ToolKeywords[k])
  {
    ChooseTool(message, ToolKeywords)
  }

  /** Upper-case letters in the message do not change the choice: it only sees the lower-cased text. */
  lemma ToolChoiceIgnoresCase(a: string, b: string)
    requires Lower(a) == Lower(b)
    ensures ToolChoice(a) == ToolChoice(b)
  {
  }

  // ----- the stem for "supprimer" -----

  /**
   * The stems with `supprim` for the listed `supprima`, which only matches
   * the rare past-tense form, so that "supprime ..." (delete ...) needs a tool
   * like the other editing verbs.
   */
  const CorrectedToolKeywords: seq<string> :=
    ["modifi", "rajoute", "ajoute", "change", "remplace", "crée", "écris", "insère", "supprim", "dele", "instal", "pip"]

  /** The keyword rule with the corrected stems. */
  function CorrectedToolChoice(message: string): (r: string)
    ensures r == "required" <==> exists k :: 0 <= k < |CorrectedToolKeywords| && Contains(Lower(message), CorrectedToolKeywords[k])
    ensures r == "auto" <==> forall k :: 0 <= k < |CorrectedToolKeywords| ==> !Contains(Lower(message), CorrectedToolKeywords[k])
  {
    ChooseTool(message, CorrectedToolKeywords)
  }

  /** Whatever contains a string contains each of its prefixes. */
  lemma ContainsPrefix(s: string, sub: string, n: nat)
    requires Contains(s, sub) && n <= |sub|
    ensures Contains(s, sub[..n])
  {
    var i :| 0 <= i <= |s| && OccursAt(s, sub, i);
    assert s[i..i + n] == sub[..n];
    assert OccursAt(s, sub[..n], i);
  }

  /** The correction only adds messages that need a tool: every message the listed stems catch is still caught. */
  lemma CorrectedCatchesMore(message: string)
    ensures ToolChoice(message) == "required" ==> CorrectedToolChoice(message) == "required"
  {
    if ToolChoice(message) == "required" {
      var k :| 0 <= k < |ToolKeywords| && Contains(Lower(message), ToolKeywords[k]);
      if k == 8 {
        assert ToolKeywords[8][..7] == CorrectedToolKeywords[8];
        ContainsPrefix(Lower(message), ToolKeywords[8], 7);
      } else {
        assert ToolKeywords[k] == CorrectedToolKeywords[k];
      }
    }
  }

  /** A lower-case message without `A`-`Z` or Latin-1 capitals is its own lower case. */
  lemma LowerOfLower(s: string)
    requires forall i :: 0 <= i < |s| ==> !('A' <= s[i] <= 'Z') && !('À' <= s[i] <= 'Þ')
    ensures Lower(s) == s
  {
  }

  /** "supprime" (delete) contains none of the listed stems, so the model may answer without a tool. */
  lemma DeleteRequestLeftToModel(m: string)
    requires m == "supprime"
    ensures ToolChoice(m) == "auto"
  {
    LowerOfLower(m);
    forall k | 0 <= k < |ToolKeywords|
      ensures !Contains(m, ToolKeywords[k])
    {
      if k == 11 {
        forall i | 0 <= i <= |m|
          ensures !OccursAt(m, "pip", i)
        {
          if i + 3 <= |m| {
            assert m[i] != 'p' || m[i + 1] != 'i';
          }
        }
      } else {
        var j := if k in {0, 1, 7, 10} then 1 else if k == 4 then 4 else if k == 8 then 7 else 0;
        MissingCharNotContained(m, ToolKeywords[k], j);
      }
    }
  }

  /** With the corrected stems the same message requires a tool. */
  lemma DeleteRequestNeedsTool(m: string)
    requires m == "supprime"
    ensures CorrectedToolChoice(m) == "required"
  {
    LowerOfLower(m);
    assert OccursAt(m, CorrectedToolKeywords[8], 0);
  }
}

=== FILE: examples.dfy ===
/**
 * The validator's own self-test cases (the `__main__` block of
 * `trm_validator.py`), stated as facts about the model on a machine where
 * `os.path.normpath` leaves these already-normal paths alone and nothing is
 * a directory. Each case states the verdict the model gives, and so whether
 * the expected approval listed beside the case holds.
 */
module Examples {
  import opened Wrappers
  import opened Text
  import opened Values
  import opened Rules
  import opened Review
  import opened Validator

  /** A machine on which no path exists and none is a directory. */
  const Empty: Platform := Platform(s => s, s => false, s => false, i => false)

  /** A machine on which every path exists as a file (the repository itself holds a `test.py`). */
  const AllFiles: Platform := Platform(s => s, s => true, s => false, i => false)

  // ----- facts about the literal paths -----

  /** A string that lacks a `W` and a `3` mentions neither WINDOWS nor SYSTEM32. */
  lemma NotSensitive(norm: string)
    requires 'W' !in norm && '3' !in norm
    ensures !Contains(norm, "WINDOWS") && !Contains(norm, "SYSTEM32")
  {
    MissingCharNotContained(norm, "WINDOWS", 0);
    MissingCharNotContained(norm, "SYSTEM32", 6);
  }

  /**
   * A relative name, or a path on the desktop of user Payet, with no `w`,
   * `W` or `3` in it: it starts with no deny-listed entry and, upper-cased,
   * mentions neither WINDOWS nor SYSTEM32.
   */
  lemma HarmlessPath(s: string)
    requires StartsWith(s, "C:\\Users\\Payet") || (|s| > 0 && UpperChar(s[0]) != 'C')
    requires 'w' !in s && 'W' !in s && '3' !in s
    ensures FirstProtectedPrefix(Upper(s), DangerousPaths) == None
    ensures !Contains(Upper(s), "WINDOWS") && !Contains(Upper(s), "SYSTEM32")
  {
    var norm := Upper(s);
    if StartsWith(s, "C:\\Users\\Payet") {
      UpperKeepsPrefix(s, "C:\\Users\\Payet");
      assert Upper("C:\\Users\\Payet") == "C:\\USERS\\PAYET";
      assert norm[3] == 'U' && norm[9] == 'P';
      forall k | 0 <= k < |DangerousPaths|
        ensures !StartsWith(norm, Upper(DangerousPaths[k]))
      {
        if k == 3 {
          assert Upper(DangerousPaths[k])[9] == 'D';
        } else {
          assert Upper(DangerousPaths[k])[3] != 'U';
        }
      }
    } else {
      forall k | 0 <= k < |DangerousPaths|
        ensures !StartsWith(norm, Upper(DangerousPaths[k]))
      {
        assert Upper(DangerousPaths[k])[0] == 'C';
      }
    }
    forall c | c in norm
      ensures c != 'W' && c != '3'
    {
      var i :| 0 <= i < |s| && norm[i] == c;
      assert s[i] in s;
    }
    NotSensitive(norm);
  }

  /** A call whose only path argument is harmless gets a clear, silent deny-list scan. */
  lemma OnePathArg(p: Platform, args: Arguments, name: string)
    requires name in PathArgNames && name in args && args[name].Str? && p.normPath(args[name].s) == args[name].s
    requires forall n :: n in PathArgNames && n != name ==> n !in args
    requires FirstProtectedPrefix(Upper(args[name].s), DangerousPaths) == None
    requires !Contains(Upper(args[name].s), "WINDOWS") && !Contains(Upper(args[name].s), "SYSTEM32")
    ensures ScanPathArgs(p, args, PathArgNames) == Clear([])
  {
    assert ScanPathArgs(p, args, ["target_path"]) == Clear([]);
    assert ScanPathArgs(p, args, ["filename", "target_path"]) == Clear([]);
  }

  /** A call the deny-list and the refusing checks let through ends at the required-argument check. */
  lemma ReachesRequired(p: Platform, tool: string, args: Arguments, ws: seq<string>)
    requires ScanPathArgs(p, args, PathArgNames) == Clear([])
    requires !DeletesRoot(tool, args) && !OverwritesCode(p, tool, args) && !RaisesOnValue(p, tool, args)
    requires StageWarnings(p, tool, args, []) == ws
    ensures CheckRules(p, tool, args) == CheckRequired(tool, args, ws)
  {
    StagesReachRequired(p, tool, args, []);
  }

  // ----- validate -----

  const WriteTestPy: Arguments := map["filename" := Str("test.py"), "content" := Str("print('hello')")]

  lemma WriteTestPyScan(p: Platform)
    requires p.normPath("test.py") == "test.py"
    ensures ScanPathArgs(p, WriteTestPy, PathArgNames) == Clear([])
  {
    HarmlessPath("test.py");
    OnePathArg(p, WriteTestPy, "filename");
  }

  /** Writing `test.py` is approved when no such file exists yet. */
  lemma WriteNewCodeFile(request: string)
    ensures Validate(Empty, None, "write_file", WriteTestPy, request) == Success(Verdict(true, "", []))
  {
    WriteTestPyScan(Empty);
    assert !OverwritesCode(Empty, "write_file", WriteTestPy);
    ReachesRequired(Empty, "write_file", WriteTestPy, []);
  }

  /** The same call is refused, pointing to `modify_file`, once `test.py` exists, whatever the model. */
  lemma OverwriteExistingCodeFile(llm: Option<Llm>, request: string)
    ensures Validate(AllFiles, llm, "write_file", WriteTestPy, request)
            == Success(Verdict(false, OverwriteReason("test.py"), []))
  {
    WriteTestPyScan(AllFiles);
    assert ".py" in CodeExtensions && EndsWith("test.py", ".py");
    assert OverwritesCode(AllFiles, "write_file", WriteTestPy);
  }

  /** A `delete_path` under `C:\Windows` is refused by the deny-list, naming `C:\Windows`. */
  lemma WindowsDenied(path: string)
    requires StartsWith(path, "C:\\Windows")
    ensures CheckRules(Empty, "delete_path", map["path" := Str(path)])
            == Success(Verdict(false, ProtectedPathReason("C:\\Windows"), []))
  {
    var args := map["path" := Str(path)];
    UpperKeepsPrefix(path, "C:\\Windows");
    assert FirstProtectedPrefix(Upper(path), DangerousPaths) == Some("C:\\Windows");
    assert ScanPathArgs(Empty, args, PathArgNames) == Denied("C:\\Windows", []);
  }

  /** Deleting `C:\Windows\System32` is refused by the deny-list, naming `C:\Windows`, whatever the model. */
  lemma DeleteSystem32(llm: Option<Llm>, request: string)
    ensures Validate(Empty, llm, "delete_path", map["path" := Str("C:\\Windows\\System32")], request)
            == Success(Verdict(false, ProtectedPathReason("C:\\Windows"), []))
  {
    WindowsDenied("C:\\Windows\\System32");
  }

  /** `C:\WindowsOld` is refused too: the deny-list compares string prefixes, not path components. */
  lemma DeleteWindowsOld(llm: Option<Llm>, request: string)
    ensures Validate(Empty, llm, "delete_path", map["path" := Str("C:\\WindowsOld")], request)
            == Success(Verdict(false, ProtectedPathReason("C:\\Windows"), []))
  {
    WindowsDenied("C:\\WindowsOld");
  }

  /** A harmless desktop path may be deleted when it is no directory, with no warning. */
  lemma DesktopDeleteApproved(path: string)
    requires StartsWith(path, "C:\\Users\\Payet") && 'w' !in path && 'W' !in path && '3' !in path
    ensures CheckRules(Empty, "delete_path", map["path" := Str(path)]) == Success(Verdict(true, "", []))
  {
    var args := map["path" := Str(path)];
    HarmlessPath(path);
    OnePathArg(Empty, args, "path");
    assert path !in RootAliases by {
      assert |path| > 3;
    }
    ReachesRequired(Empty, "delete_path", args, []);
  }

  /** The literal path is a harmless desktop path; proved apart so that its caller stays small. */
  lemma DesktopFileIsHarmless(path: string)
    requires path == "C:\\Users\\Payet\\Desktop\\test.txt"
    ensures StartsWith(path, "C:\\Users\\Payet") && 'w' !in path && 'W' !in path && '3' !in path
  {
    assert path[..14] == "C:\\Users\\Payet";
  }

  lemma DesktopFileDeletion(llm: Option<Llm>, request: string, path: string)
    requires path == "C:\\Users\\Payet\\Desktop\\test.txt"
    ensures Validate(Empty, llm, "delete_path", map["path" := Str(path)], request) == Success(Verdict(true, "", []))
  {
    DesktopFileIsHarmless(path);
    DesktopDeleteApproved(path);
  }

  /** A file on the desktop may be deleted, with no warning. */
  lemma DeleteDesktopFile(llm: Option<Llm>, request: string)
    ensures Validate(Empty, llm, "delete_path", map["path" := Str("C:\\Users\\Payet\\Desktop\\test.txt")], request)
            == Success(Verdict(true, "", []))
  {
    DesktopFileDeletion(llm, request, "C:\\Users\\Payet\\Desktop\\test.txt");
  }

  /** Deleting the root of drive C is refused, whatever the model. */
  lemma DeleteDriveRoot(llm: Option<Llm>, request: string)
    ensures Validate(Empty, llm, "delete_path", map["path" := Str("C:\\")], request)
            == Success(Verdict(false, RootDeletionReason, []))
  {
    var args := map["path" := Str("C:\\")];
    assert Upper("C:\\") == "C:\\";
    assert FirstProtectedPrefix(Upper("C:\\"), DangerousPaths) == None;
    NotSensitive(Upper("C:\\"));
    OnePathArg(Empty, args, "path");
  }

  /**
   * Deleting by an integer `path` that does not fit a C `int` raises
   * `OverflowError` from the directory probe, whatever the machine and the model.
   */
  lemma HugeDescriptorRaises(p: Platform, llm: Option<Llm>, request: string)
    ensures Validate(p, llm, "delete_path", map["path" := Int(1099511627776)], request) == Failure(OverflowError)
  {
    var args := map["path" := Int(1099511627776)];
    assert ScanPathArgs(p, args, ["target_path"]) == Clear([]);
    assert ScanPathArgs(p, args, ["filename", "target_path"]) == Clear([]);
    assert ScanPathArgs(p, args, PathArgNames) == Clear([]);
  }

  /** Reading `agent.py` is approved. */
  lemma ReadFile(request: string)
    ensures Validate(Empty, None, "read_file", map["filename" := Str("agent.py")], request)
            == Success(Verdict(true, "", []))
  {
    var args := map["filename" := Str("agent.py")];
    HarmlessPath("agent.py");
    OnePathArg(Empty, args, "filename");
    ReachesRequired(Empty, "read_file", args, []);
  }

  /** Reading without a filename is refused for the missing argument, whatever the model. */
  lemma ReadFileWithoutName(llm: Option<Llm>, request: string)
    ensures Validate(Empty, llm, "read_file", map[], request)
            == Success(Verdict(false, MissingArgumentReason("filename"), []))
  {
    assert ScanPathArgs(Empty, map[], PathArgNames) == Clear([]);
    ReachesRequired(Empty, "read_file", map[], []);
  }

  /** Pushing to `main` is approved with a warning when no model is loaded. */
  lemma PushMain(request: string)
    ensures Validate(Empty, None, "git_push", map["branch" := Str("main")], request)
            == Success(Verdict(true, "", [PushMainWarning]))
  {
    var args := map["branch" := Str("main")];
    assert ScanPathArgs(Empty, args, PathArgNames) == Clear([]);
    ReachesRequired(Empty, "git_push", args, [PushMainWarning]);
  }

  // ----- validate_plan -----

  const Desktop: string := "C:\\Users\\Payet\\Desktop"
  const ListDesktop: Step := Step(Some("list_files"), Some(map["path" := Str(Desktop)]))

  /** A harmless desktop path may be listed. */
  lemma DesktopListApproved(path: string)
    requires StartsWith(path, "C:\\Users\\Payet") && 'w' !in path && 'W' !in path && '3' !in path
    ensures CheckRules(Empty, "list_files", map["path" := Str(path)]) == Success(Verdict(true, "", []))
  {
    var args := map["path" := Str(path)];
    HarmlessPath(path);
    OnePathArg(Empty, args, "path");
    ReachesRequired(Empty, "list_files", args, []);
  }

  /** The literal path is a harmless desktop path; proved apart so that its caller stays small. */
  lemma DesktopIsHarmless()
    ensures StartsWith(Desktop, "C:\\Users\\Payet") && 'w' !in Desktop && 'W' !in Desktop && '3' !in Desktop
  {
  }

  /** The step's rule check is `_check_rules` on its action and arguments; proved apart so that its caller stays small. */
  lemma ListDesktopIsCheckRules()
    ensures RuleCheck(Empty)(ListDesktop) == CheckRules(Empty, "list_files", map["path" := Str(Desktop)])
  {
  }

  lemma ListDesktopPasses()
    ensures RuleCheck(Empty)(ListDesktop) == Success(Verdict(true, "", []))
  {
    DesktopIsHarmless();
    DesktopListApproved(Desktop);
    ListDesktopIsCheckRules();
  }

  /** One more turn of the loop over the steps, on a step the check accepts. */
  lemma ScanSnocAccepted(check: StepChecker, steps: seq<Step>, s: Step)
    requires ScanSteps(check, steps).Success? && check(s).Success? && check(s).value.approved
    ensures var prev := ScanSteps(check, steps).value;
      ScanSteps(check, steps + [s])
      == Success(Partition(prev.kept + [s], prev.blocked, prev.warnings + check(s).value.warnings))
  {
    assert (steps + [s])[..|steps|] == steps;
  }

  /** One more turn of the loop over the steps, on a step the check refuses. */
  lemma ScanSnocRefused(check: StepChecker, steps: seq<Step>, s: Step)
    requires ScanSteps(check, steps).Success? && check(s).Success? && !check(s).value.approved
    ensures var prev := ScanSteps(check, steps).value;
      ScanSteps(check, steps + [s])
      == Success(Partition(prev.kept, prev.blocked + [BlockedStep(|steps| + 1, ActionName(s), check(s).value.reason)], prev.warnings))
  {
    var all := steps + [s];
    assert all[..|all| - 1] == steps;
    assert all[|all| - 1] == s;
  }

  lemma ListDesktopScan()
    ensures ScanSteps(RuleCheck(Empty), [ListDesktop]) == Success(Partition([ListDesktop], [], []))
  {
    ListDesktopPasses();
    ScanSnocAccepted(RuleCheck(Empty), [], ListDesktop);
    assert [] + [ListDesktop] == [ListDesktop];
  }

  /** A plan that only lists the desktop is approved whole, whatever the model. */
  lemma PlanListDesktop(llm: Option<Llm>, request: string)
    ensures ValidatePlan(Empty, llm, Some(PlanInput(Some([ListDesktop]), Some("Lister le bureau"))), request)
      == Success(PlanVerdict(true, Some(CorrectedPlan([ListDesktop], "Lister le bureau")), [], [], ApprovedFeedback))
  {
    ListDesktopScan();
    assert !HasHighRisk([ListDesktop]) by {
      assert [ListDesktop][0].action.value == "list_files";
    }
    assert PlanReviewOf(llm, [ListDesktop], request, true) == None;
  }

  const DeleteSystem32Step: Step := Step(Some("delete_path"), Some(map["path" := Str("C:\\Windows\\System32")]))
  const DeleteWindows: Step := Step(Some("delete_path"), Some(map["path" := Str("C:\\Windows")]))
  const DeleteTemp: Step := Step(Some("delete_path"), Some(map["path" := Str("C:\\Users\\Payet\\Desktop\\temp.txt")]))

  lemma WindowsStepsRefused()
    ensures RuleCheck(Empty)(DeleteSystem32Step) == Success(Verdict(false, ProtectedPathReason("C:\\Windows"), []))
    ensures RuleCheck(Empty)(DeleteWindows) == Success(Verdict(false, ProtectedPathReason("C:\\Windows"), []))
  {
    WindowsDenied("C:\\Windows\\System32");
    WindowsDenied("C:\\Windows");
  }

  /** The literal path is a harmless desktop path; proved apart so that its caller stays small. */
  lemma TempIsHarmless()
    ensures var path := "C:\\Users\\Payet\\Desktop\\temp.txt";
      StartsWith(path, "C:\\Users\\Payet") && 'w' !in path && 'W' !in path && '3' !in path
  {
  }

  /** The step's rule check is `_check_rules` on its action and arguments; proved apart so that its caller stays small. */
  lemma DeleteTempIsCheckRules()
    ensures RuleCheck(Empty)(DeleteTemp) == CheckRules(Empty, "delete_path", map["path" := Str("C:\\Users\\Payet\\Desktop\\temp.txt")])
  {
  }

  lemma DeleteTempPasses()
    ensures RuleCheck(Empty)(DeleteTemp) == Success(Verdict(true, "", []))
  {
    TempIsHarmless();
    DesktopDeleteApproved("C:\\Users\\Payet\\Desktop\\temp.txt");
    DeleteTempIsCheckRules();
  }

  /** A plan deleting System32 has its only step blocked and no corrected plan, whatever the model. */
  lemma PlanDeleteSystem32(llm: Option<Llm>, request: string)
    ensures var r := ValidatePlan(Empty, llm, Some(PlanInput(Some([DeleteSystem32Step]), Some("Suppression système"))), request);
      && r.Success? && !r.value.approved && r.value.correctedPlan == None
      && r.value.blockedSteps == [BlockedStep(1, "delete_path", ProtectedPathReason("C:\\Windows"))]
  {
    WindowsStepsRefused();
    ScanSnocRefused(RuleCheck(Empty), [], DeleteSystem32Step);
    assert [] + [DeleteSystem32Step] == [DeleteSystem32Step];
  }

  /** A loop over three steps of which only the second is refused keeps the other two and blocks it as step 2. */
  lemma MixedScan(c: StepChecker, s1: Step, s2: Step, s3: Step, reason: string)
    requires c(s1) == Success(Verdict(true, "", [])) && c(s3) == Success(Verdict(true, "", []))
    requires c(s2) == Success(Verdict(false, reason, []))
    ensures ScanSteps(c, [s1, s2, s3])
      == Success(Partition([s1, s3], [BlockedStep(2, ActionName(s2), reason)], []))
  {
    var empty: seq<Step> := [];
    var none: seq<string> := [];
    var blocked := [BlockedStep(2, ActionName(s2), reason)];
    assert ScanSteps(c, empty) == Success(Partition([], [], []));
    ScanSnocAccepted(c, empty, s1);
    assert empty + [s1] == [s1] && none + none == none;
    assert ScanSteps(c, [s1]) == Success(Partition([s1], [], []));
    ScanSnocRefused(c, [s1], s2);
    assert [s1] + [s2] == [s1, s2];
    assert [] + blocked == blocked;
    assert ScanSteps(c, [s1, s2]) == Success(Partition([s1], blocked, []));
    ScanSnocAccepted(c, [s1, s2], s3);
    var prev := ScanSteps(c, [s1, s2]).value;
    assert prev.kept + [s3] == [s1, s3];
    assert prev.blocked == blocked;
    assert c(s3).value.warnings == [] && prev.warnings == [];
    assert prev.warnings + c(s3).value.warnings == [];
    assert [s1, s2] + [s3] == [s1, s2, s3];
  }

  /** A mixed plan keeps its first and third steps in order, blocks the second, and is refused, whatever the model. */
  lemma PlanMixed(llm: Option<Llm>, request: string)
    ensures var r := ValidatePlan(Empty, llm, Some(PlanInput(Some([ListDesktop, DeleteWindows, DeleteTemp]), Some("Nettoyage"))), request);
      && r.Success? && !r.value.approved
      && r.value.correctedPlan == Some(CorrectedPlan([ListDesktop, DeleteTemp], "Nettoyage"))
      && r.value.blockedSteps == [BlockedStep(2, "delete_path", ProtectedPathReason("C:\\Windows"))]
  {
    ListDesktopPasses();
    WindowsStepsRefused();
    DeleteTempPasses();
    MixedScan(RuleCheck(Empty), ListDesktop, DeleteWindows, DeleteTemp, ProtectedPathReason("C:\\Windows"));
  }

  /** A plan without `steps` is refused with the fixed message. */
  lemma PlanWithoutSteps(p: Platform, llm: Option<Llm>, request: string)
    ensures ValidatePlan(p, llm, Some(PlanInput(None, Some("Plan vide"))), request)
            == Success(PlanVerdict(false, None, [], [], InvalidPlanFeedback))
  {
  }

  // ----- the model's reading of plan reviews -----

  /** A reply with no whitespace and no `<` is read as it stands. */
  lemma CleanedPlain(text: string)
    requires forall i :: 0 <= i < |text| ==> !IsSpace(text[i]) && text[i] != '<'
    ensures Cleaned(text) == text
  {
    assert '<' !in Lower(text) by {
      forall i | 0 <= i < |text|
        ensures Lower(text)[i] != '<'
      {
      }
    }
    MissingCharNotContained(Lower(text), "<think>", 0);
  }

  /** A reply made only of ASCII letters is read as it stands. */
  lemma PlainLetters(text: string)
    requires forall i :: 0 <= i < |text| ==> 'a' <= text[i] <= 'z' || 'A' <= text[i] <= 'Z'
    ensures Cleaned(text) == text
  {
    CleanedPlain(text);
  }

  /** Upper-casing a string of ASCII letters `a`-`z` shifts each by 32. */
  lemma UpperAscii(s: string, t: string)
    requires |s| == |t|
    requires forall i :: 0 <= i < |s| ==> ('a' <= s[i] <= 'z' && t[i] as int == s[i] as int - 32) || ('A' <= s[i] <= 'Z' && t[i] == s[i])
    ensures Upper(s) == t
  {
  }

  /** Removing a character that does not occur changes nothing. */
  lemma {:induction false} RemoveAbsent(s: string, c: char)
    requires c !in s
    ensures RemoveChar(s, c) == s
  {
    if s != [] {
      assert s[0] != c;
      RemoveAbsent(s[1..], c);
      assert [s[0]] + s[1..] == s;
    }
  }

  /** A reply naming the marker, read for a plan, is a refusal whose feedback is what follows the marker. */
  lemma PlanRefusal(text: string)
    requires Contains(Upper(Cleaned(text)), "REJECTED")
    ensures ReviewPlan(Completed(text)) == PlanReview(false, [], "", After(Cleaned(text), "REJECTED"))
  {
  }

  /** When the marker is absent the reply is kept whole, less its colons and surrounding space. */
  lemma AfterAbsentMarker(out: string, marker: string)
    requires |marker| > 0 && !Contains(out, marker) && ':' !in out
    requires forall i :: 0 <= i < |out| ==> !IsSpace(out[i])
    ensures After(out, marker) == out
  {
    RemoveAbsent(out, ':');
  }

  /** A reply that is nothing but the marker leaves nothing after it. */
  lemma AfterWholeMarker(marker: string)
    requires |marker| > 0
    ensures After(marker, marker) == ""
  {
    assert OccursAt(marker, marker, 0);
    assert IndexOf(marker, marker) == Some(0);
    assert marker[|marker|..] == [];
    var empty: string := [];
    assert !Contains(empty, marker);
    assert LastPiece(marker, marker) == [];
  }

  lemma LowerRejectedIsClean(text: string)
    requires text == "rejected"
    ensures Cleaned(text) == text
  {
    PlainLetters(text);
  }

  lemma LowerRejectedUpper(text: string)
    requires text == "rejected"
    ensures Upper(text) == "REJECTED"
  {
    UpperAscii(text, "REJECTED");
  }

  lemma LowerRejectedIsPlain(text: string)
    requires text == "rejected"
    ensures Cleaned(text) == text && Upper(text) == "REJECTED"
  {
    LowerRejectedIsClean(text);
    LowerRejectedUpper(text);
  }

  lemma LowerRejectedNamesMarker(text: string)
    requires text == "rejected"
    ensures Contains(Upper(Cleaned(text)), "REJECTED")
  {
    LowerRejectedIsPlain(text);
    ContainsSelf("REJECTED");
  }

  lemma LowerRejectedKeptWhole(text: string)
    requires text == "rejected"
    ensures After(text, "REJECTED") == text
  {
    MissingCharNotContained(text, "REJECTED", 0);
    AfterAbsentMarker(text, "REJECTED");
  }

  /**
   * A lower-case `rejected` refuses the plan, but the reply is cut at the
   * upper-case marker, which is absent, so the whole reply becomes the
   * feedback.
   */
  lemma LowerCaseRejection(text: string)
    requires text == "rejected"
    ensures ReviewPlan(Completed(text)) == PlanReview(false, [], "", text)
  {
    LowerRejectedNamesMarker(text);
    PlanRefusal(text);
    LowerRejectedIsPlain(text);
    LowerRejectedKeptWhole(text);
  }

  // ----- the overwritten plan-review feedback -----

  /** A plan pushing to `dev`, and a model that refuses every plan with a bare `REJECTED`. */
  const DevPush: Step := Step(Some("git_push"), Some(map["branch" := Str("dev")]))
  const Refusing: Llm := Llm((t, a, r) => Completed("APPROVED"), (s, r) => Completed("REJECTED"))

  lemma DevPushPassesRules()
    ensures RuleCheck(Empty)(DevPush) == Success(Verdict(true, "", []))
    ensures HasHighRisk([DevPush])
  {
    var args := map["branch" := Str("dev")];
    assert ScanPathArgs(Empty, args, PathArgNames) == Clear([]);
    ReachesRequired(Empty, "git_push", args, []);
    assert [DevPush][0].action.value in HighRiskActions;
  }

  lemma BareRefusalIsClean(text: string)
    requires text == "REJECTED"
    ensures Cleaned(text) == text
  {
    PlainLetters(text);
  }

  lemma BareRefusalUpper(text: string)
    requires text == "REJECTED"
    ensures Upper(text) == text
  {
    UpperAscii(text, text);
  }

  lemma BareRefusalIsPlain(text: string)
    requires text == "REJECTED"
    ensures Cleaned(text) == text && Upper(text) == text
  {
    BareRefusalIsClean(text);
    BareRefusalUpper(text);
  }

  lemma BareRefusalNamesMarker(text: string)
    requires text == "REJECTED"
    ensures Contains(Upper(Cleaned(text)), "REJECTED")
  {
    BareRefusalIsPlain(text);
    ContainsSelf(text);
  }

  /** A bare `REJECTED` refuses the plan with nothing after the marker to report. */
  lemma BareRefusal(text: string)
    requires text == "REJECTED"
    ensures ReviewPlan(Completed(text)) == PlanReview(false, [], "", "")
  {
    BareRefusalNamesMarker(text);
    PlanRefusal(text);
    BareRefusalIsPlain(text);
    AfterWholeMarker(text);
  }

  /** The model's bare refusal gives an empty feedback. */
  lemma RefusingReview()
    ensures ReviewPlan(Refusing.reviewPlan([DevPush], "")) == PlanReview(false, [], "", "")
  {
    BareRefusal(Refusing.reviewPlan([DevPush], "").text);
  }

  /**
   * As written, whenever every step passes the rules without warnings and
   * the model then refuses the plan, the verdict is a refusal with no
   * blocked step whose feedback says the plan is ready to run.
   */
  lemma RefusedReviewReadsAsReady(p: Platform, llm: Option<Llm>, steps: seq<Step>, summary: Option<string>, request: string, said: string)
    requires steps != [] && ScanSteps(RuleCheck(p), steps) == Success(Partition(steps, [], []))
    requires PlanReviewOf(llm, steps, request, true) == Some(PlanReview(false, [], "", said))
    ensures ValidatePlan(p, llm, Some(PlanInput(Some(steps), summary)), request)
            == Success(PlanVerdict(false, Some(CorrectedPlan(steps, summary.GetOr(DefaultSummary))), [], [], ApprovedFeedback))
  {
  }

  lemma DevPushScan()
    ensures ScanSteps(RuleCheck(Empty), [DevPush]) == Success(Partition([DevPush], [], []))
  {
    DevPushPassesRules();
    var empty: seq<Step> := [];
    assert ScanSteps(RuleCheck(Empty), empty) == Success(Partition([], [], []));
    ScanSnocAccepted(RuleCheck(Empty), empty, DevPush);
    var prev := ScanSteps(RuleCheck(Empty), empty).value;
    assert prev.kept + [DevPush] == [DevPush];
    assert prev.warnings + RuleCheck(Empty)(DevPush).value.warnings == [];
    assert empty + [DevPush] == [DevPush];
  }

  lemma DevPushRefusedByModel()
    ensures PlanReviewOf(Some(Refusing), [DevPush], "", true) == Some(PlanReview(false, [], "", ""))
  {
    DevPushPassesRules();
    RefusingReview();
  }

  /** The refusing model on the `dev` push: the refusal is overwritten by the ready-to-run feedback. */
  lemma RefusedPlanReadsAsReady()
    ensures ValidatePlan(Empty, Some(Refusing), Some(PlanInput(Some([DevPush]), None)), "")
            == Success(PlanVerdict(false, Some(CorrectedPlan([DevPush], DefaultSummary)), [], [], ApprovedFeedback))
  {
    DevPushScan();
    DevPushRefusedByModel();
    RefusedReviewReadsAsReady(Empty, Some(Refusing), [DevPush], None, "", "");
  }

  /** With the correction the same plan is refused with a feedback that says so. */
  lemma RefusedPlanReportsReason()
    ensures ValidatePlanReportingReview(Empty, Some(Refusing), Some(PlanInput(Some([DevPush]), None)), "")
            == Success(PlanVerdict(false, Some(CorrectedPlan([DevPush], DefaultSummary)), [], [], DefaultReviewRejection))
  {
    RefusedPlanReadsAsReady();
    RefusingReview();
  }
}

=== FILE: factorial.dfy ===
/**
 * The two factorials of the repository: the iterative `factorial(n)` of
 * `test.py`, which refuses negative numbers, and the recursive
 * `Factoriel(n).compute()` of `factorial.py`. Python integers are unbounded,
 * so `int` models them exactly. Both are compared against one reference
 * definition, the product of a range of integers.
 */
module Factorial {
  import opened Wrappers

  /** The exception `factorial` raises. */
  datatype FactorialError = ValueError(message: string)

  const NegativeMessage: string := "La factorielle n'est pas définie pour les nombres négatifs"

  /** The product `lo * (lo + 1) * ... * hi`, which is 1 when the range is empty. */
  function Product(lo: int, hi: int): (r: int)
    decreases hi - lo
    ensures lo >= 1 ==> r >= 1
  {
    if hi < lo then 1 else Product(lo, hi - 1) * hi
  }

  /** `test.py`'s `factorial(n)`: a `ValueError` for negative `n`, else `2 * 3 * ... * n`. */
  method IterativeFactorial(n: int) returns (r: Result<int, FactorialError>)
    ensures r.Failure? <==> n < 0
    ensures r.Failure? ==> r.error == ValueError(NegativeMessage)
    ensures r.Success? ==> r.value == Product(2, n) && r.value >= 1
    ensures r.Success? ==> r.value == Compute(n)
  {
    if n < 0 {
      return Failure(ValueError(NegativeMessage));
    }
    var result := 1;
    var i := 2;
    while i < n + 1
      invariant 2 <= i && (i <= n + 1 || i == 2)
      invariant result == Product(2, i - 1)
    {
      result := result * i;
      i := i + 1;
    }
    assert Product(2, i - 1) == Product(2, n) by {
      if n < 1 {
        assert i == 2;
      }
    }
    ComputeIsProduct(n);
    return Success(result);
  }

  /**
   * `Factoriel(n).compute()`. It stops only at 0, so a negative `n` never
   * reaches the base case; callers must pass `n >= 0`.
   */
  function Compute(n: int): (r: int)
    requires n >= 0
    ensures r >= 1 && r >= n
  {
    if n == 0 then 1 else n * Compute(n - 1)
  }

  /** The empty range and the one-element range `2..1` both give 1: `factorial(0) == factorial(1) == 1`. */
  lemma FactorialBase()
    ensures Product(2, 0) == 1 && Product(2, 1) == 1
    ensures Compute(0) == 1 && Compute(1) == 1
  {
  }

  /** `n! == n * (n - 1)!` for the range product, for every `n >= 1`. */
  lemma FactorialRecurrence(n: int)
    requires n >= 1
    ensures Product(2, n) == n * Product(2, n - 1)
  {
    if n == 1 {
      assert Product(2, 1) == 1 && Product(2, 0) == 1;
    }
  }

  /** The recursive `compute` equals the range product, hence the iterative `factorial`, on every `n >= 0`. */
  lemma {:induction false} ComputeIsProduct(n: int)
    requires n >= 0
    ensures Compute(n) == Product(2, n)
  {
    if n > 0 {
      ComputeIsProduct(n - 1);
      FactorialRecurrence(n);
    }
  }
}

=== FILE: review.dfy ===
/**
 * Reading the reply of the optional local review model. The model itself is
 * an oracle: a call either completes with some text or fails with an error
 * message. What the validator does with the text is modelled exactly: strip
 * it, keep only what follows `</think>` when the reply opens a `<think>`
 * block, then look for `REJECTED` first and only then for `WARNING` (single
 * action) or `SUGGEST` (whole plan).
 */
module Review {
  import opened Text
  import opened Rules

  /** What one call to the model gave back. */
  datatype Reply = Completed(text: string) | CallFailed(error: string)

  /** The review of a whole plan: `_validate_plan_with_trm`'s result dict. */
  datatype PlanReview = PlanReview(approved: bool, warnings: seq<string>, suggestions: string, feedback: string)

  const DefaultRejection: string := "Action rejetée par TRM"
  const DefaultWarning: string := "Attention requise"

  function ActionReviewFailed(error: string): string {
    "\U{26A0}\U{FE0F} Validation TRM échouée: " + error
  }

  function PlanReviewFailed(error: string): string {
    "\U{26A0}\U{FE0F} Validation TRM plan échouée: " + error
  }

  const ThinkClose: string := "</think>"

  /** `</think>` cannot overlap itself, so "after the last occurrence" is unambiguous. */
  lemma ThinkCloseOverlapFree()
    ensures SelfOverlapFree(ThinkClose)
  {
    HeadOnceOverlapFree(ThinkClose);
  }

  /** The reply mentions `<think>` in any case. */
  predicate OpensThink(out: string) {
    Contains(Lower(out), "<think>")
  }

  /**
   * The stripped reply, cut after the last `</think>` when it mentions
   * `<think>` in any case. A reply that opens no think block, or never closes
   * one, is only stripped.
   */
  function Cleaned(text: string): (r: string)
    ensures CleanReading(Strip(text), r)
  {
    var out := Strip(text);
    var r := if OpensThink(out) then AfterThink(out) else out;
    CleanedCut(out, r);
    r
  }

  /**
   * `r` is a clean reading of the stripped reply `out`: itself stripped; `out`
   * unchanged when it opens no think block or never closes one; otherwise
   * free of `</think>` and, when `out` closes the block, the stripped text
   * after the last `</think>`.
   */
  ghost predicate CleanReading(out: string, r: string) {
    && (r == [] || (!IsSpace(r[0]) && !IsSpace(r[|r| - 1])))
    && (!OpensThink(out) || !Contains(out, ThinkClose) ==> r == out)
    && (OpensThink(out) ==> !Contains(r, ThinkClose))
    && (OpensThink(out) && Contains(out, ThinkClose) ==>
          exists i :: OccursAt(out, ThinkClose, i) && (forall j :: i < j ==> !OccursAt(out, ThinkClose, j))
                      && r == Strip(out[i + |ThinkClose|..]))
  }

  /** Cleaning a stripped reply `out` into `r` is a clean reading of it, case by case. */
  lemma CleanedCut(out: string, r: string)
    requires out == [] || (!IsSpace(out[0]) && !IsSpace(out[|out| - 1]))
    requires r == if OpensThink(out) then AfterThink(out) else out
    ensures CleanReading(out, r)
  {
    if OpensThink(out) {
      ThinkReading(out);
    }
  }

  /** A reply that opens a think block reads as what `AfterThink` keeps of it. */
  lemma ThinkReading(out: string)
    requires out == [] || (!IsSpace(out[0]) && !IsSpace(out[|out| - 1]))
    requires OpensThink(out)
    ensures CleanReading(out, AfterThink(out))
  {
  }

  /** `out.split("</think>")[-1].strip()` on an already stripped reply. */
  function AfterThink(out: string): (r: string)
    requires out == [] || (!IsSpace(out[0]) && !IsSpace(out[|out| - 1]))
    ensures r == [] || (!IsSpace(r[0]) && !IsSpace(r[|r| - 1]))
    ensures !Contains(out, ThinkClose) ==> r == out
    ensures !Contains(r, ThinkClose)
    ensures Contains(out, ThinkClose) ==>
      exists i :: OccursAt(out, ThinkClose, i) && (forall j :: i < j ==> !OccursAt(out, ThinkClose, j))
                  && r == Strip(out[i + |ThinkClose|..])
  {
    var piece := LastPiece(out, ThinkClose);
    StripKeepsAbsent(piece, ThinkClose);
    ThinkCutWhenAbsent(out);
    ThinkCutAfterLast(out);
    Strip(piece)
  }

  /** With no `</think>` the split leaves the stripped reply as it is. */
  lemma ThinkCutWhenAbsent(out: string)
    requires out == [] || (!IsSpace(out[0]) && !IsSpace(out[|out| - 1]))
    ensures !Contains(out, ThinkClose) ==> Strip(LastPiece(out, ThinkClose)) == out
  {
    StripKeepsStripped(out);
  }

  /** With a `</think>` the split keeps what follows its last occurrence. */
  lemma ThinkCutAfterLast(out: string)
    ensures Contains(out, ThinkClose) ==>
      exists i :: OccursAt(out, ThinkClose, i) && (forall j :: i < j ==> !OccursAt(out, ThinkClose, j))
                  && Strip(LastPiece(out, ThinkClose)) == Strip(out[i + |ThinkClose|..])
  {
    if Contains(out, ThinkClose) {
      ThinkCloseOverlapFree();
      LastPieceAfterLast(out, ThinkClose);
    }
  }

  /**
   * `out.split(marker)[-1].replace(":", "").strip()`: the text after the last
   * occurrence of the marker (the whole text when it does not occur), without
   * colons and surrounding whitespace.
   */
  function After(out: string, marker: string): (r: string)
    requires |marker| > 0
    ensures ':' !in r
    ensures r == [] || (!IsSpace(r[0]) && !IsSpace(r[|r| - 1]))
    ensures forall c :: c in r ==> c in out
    ensures !Contains(out, marker) ==> r == Strip(RemoveChar(out, ':'))
    ensures Contains(out, marker) ==>
      exists i :: OccursAt(out, marker, i) && r == Strip(RemoveChar(out[i + |marker|..], ':'))
  {
    var piece := LastPiece(out, marker);
    assert forall c :: c in piece ==> c in out by {
      assert piece == out[|out| - |piece|..];
    }
    Strip(RemoveChar(piece, ':'))
  }

  /** For a marker that cannot overlap itself, what `After` keeps follows the marker's last occurrence. */
  lemma AfterLast(out: string, marker: string)
    requires |marker| > 0 && SelfOverlapFree(marker) && Contains(out, marker)
    ensures exists i :: OccursAt(out, marker, i) && (forall j :: i < j ==> !OccursAt(out, marker, j))
                        && After(out, marker) == Strip(RemoveChar(out[i + |marker|..], ':'))
  {
    LastPieceAfterLast(out, marker);
  }

  /** The markers the replies are read for cannot overlap themselves. */
  lemma MarkersOverlapFree()
    ensures SelfOverlapFree("REJECTED") && SelfOverlapFree("WARNING") && SelfOverlapFree("SUGGEST")
  {
    HeadOnceOverlapFree("REJECTED");
    HeadOnceOverlapFree("WARNING");
    var g := "SUGGEST";
    forall k | 0 < k < |g|
      ensures g[k..] != g[..|g| - k]
    {
      if k == 5 {
        assert g[k..][1] != g[..|g| - k][1];
      } else {
        assert g[k..][0] != g[..|g| - k][0];
      }
    }
  }

  /** Every character of an upper-cased string is left alone by upper-casing. */
  lemma UpperFixesItsChars(s: string, c: char)
    requires c in Upper(s)
    ensures UpperChar(c) == c
  {
  }

  /** A string made of characters of an upper-cased string is itself upper-case. */
  lemma UpperCaseSubset(s: string, r: string)
    requires forall c :: c in r ==> c in Upper(s)
    ensures Upper(r) == r
  {
    forall i | 0 <= i < |r|
      ensures Upper(r)[i] == r[i]
    {
      assert r[i] in r;
      UpperFixesItsChars(s, r[i]);
    }
  }

  /** Upper-casing is idempotent on each character of its result. */
  lemma UpperIsUpperCase(s: string)
    ensures forall c :: c in Upper(s) ==> UpperChar(c) == c
  {
    forall c | c in Upper(s)
      ensures UpperChar(c) == c
    {
      UpperFixesItsChars(s, c);
    }
  }

  /** The default texts hold lower-case letters, so no upper-cased piece of a reply equals them. */
  lemma DefaultsHaveLowerCase()
    ensures 'c' in DefaultRejection && 't' in DefaultWarning
    ensures UpperChar('c') != 'c' && UpperChar('t') != 't'
  {
    assert DefaultRejection[1] == 'c';
    assert DefaultWarning[1] == 't';
  }

  /** The default texts are non-empty and hold no colon, like every text cut by `After`. */
  lemma DefaultsColonFree()
    ensures DefaultRejection != "" && ':' !in DefaultRejection
    ensures DefaultWarning != "" && ':' !in DefaultWarning
  {
  }

  /**
   * The verdict read from the upper-cased, cleaned reply `out`: refused for
   * `REJECTED` with the text after it (or the default reason), else warned
   * for `WARNING` with the text after it (or the default warning).
   */
  function ReadAction(out: string): (v: Verdict)
    requires forall c :: c in out ==> UpperChar(c) == c
    ensures !v.approved <==> Contains(out, "REJECTED")
    ensures !v.approved ==> v.reason != "" && ':' !in v.reason && v.warnings == []
    ensures v.approved ==> v.reason == "" && |v.warnings| <= 1
    ensures v.approved ==> (v.warnings != [] <==> Contains(out, "WARNING"))
    ensures v.warnings != [] ==> v.warnings[0] != "" && ':' !in v.warnings[0]
    ensures !v.approved ==>
      var part := After(out, "REJECTED");
      (v.reason == DefaultRejection <==> part == "") && (part != "" ==> v.reason == part)
    ensures v.approved && v.warnings != [] ==>
      var part := After(out, "WARNING");
      (v.warnings[0] == DefaultWarning <==> part == "") && (part != "" ==> v.warnings[0] == part)
  {
    DefaultsHaveLowerCase();
    DefaultsColonFree();
    if Contains(out, "REJECTED") then
      var part := After(out, "REJECTED");
      assert part != DefaultRejection by {
        assert 'c' !in part;
      }
      Verdict(false, if part != "" then part else DefaultRejection, [])
    else if Contains(out, "WARNING") then
      var part := After(out, "WARNING");
      assert part != DefaultWarning by {
        assert 't' !in part;
      }
      Verdict(true, "", [if part != "" then part else DefaultWarning])
    else
      Verdict(true, "", [])
  }

  /**
   * `_validate_with_trm`'s reading of a reply. `REJECTED` anywhere in the
   * upper-cased reply refuses, whatever else it says; a model that cannot be
   * called never refuses.
   */
  function ReviewAction(reply: Reply): (v: Verdict)
    ensures reply.CallFailed? ==> v == Verdict(true, "", [ActionReviewFailed(reply.error)])
    ensures reply.Completed? ==>
      (!v.approved <==> Contains(Upper(Cleaned(reply.text)), "REJECTED"))
    ensures !v.approved ==> v.reason != "" && ':' !in v.reason && v.warnings == []
    ensures v.approved ==> v.reason == "" && |v.warnings| <= 1
    // the reason is the text after the last REJECTED; the default text stands exactly for an empty one
    ensures reply.Completed? && !v.approved ==>
      var part := After(Upper(Cleaned(reply.text)), "REJECTED");
      (v.reason == DefaultRejection <==> part == "") && (part != "" ==> v.reason == part)
    // likewise the warning is the text after the last WARNING, or the default text for an empty one
    ensures reply.Completed? && v.approved && v.warnings != [] ==>
      var part := After(Upper(Cleaned(reply.text)), "WARNING");
      (v.warnings[0] == DefaultWarning <==> part == "") && (part != "" ==> v.warnings[0] == part)
  {
    match reply
    case CallFailed(e) => Verdict(true, "", [ActionReviewFailed(e)])
    case Completed(text) =>
      UpperIsUpperCase(Cleaned(text));
      ReadAction(Upper(Cleaned(text)))
  }

  /** A completed reply warns exactly when it says WARNING and not REJECTED, with a non-empty warning. */
  lemma ReviewActionWarning(reply: Reply)
    requires reply.Completed?
    ensures var v := ReviewAction(reply);
      v.approved ==> (v.warnings != [] <==> Contains(Upper(Cleaned(reply.text)), "WARNING"))
    ensures var v := ReviewAction(reply);
      v.warnings != [] ==> v.warnings[0] != "" && ':' !in v.warnings[0]
  {
    UpperIsUpperCase(Cleaned(reply.text));
  }

  /** A refusal's reason is the default one or a piece of the upper-cased reply, so it is upper-case. */
  lemma ReviewActionReasonIsUpperCase(reply: Reply)
    requires !ReviewAction(reply).approved
    ensures var reason := ReviewAction(reply).reason;
      reason == DefaultRejection || Upper(reason) == reason
  {
    var out := Upper(Cleaned(reply.text));
    var part := After(out, "REJECTED");
    if part != "" {
      UpperCaseSubset(Cleaned(reply.text), part);
    }
  }

  /**
   * `_validate_plan_with_trm`'s reading of a reply. The markers are looked for
   * in the upper-cased reply but the text is cut in the reply as written, so a
   * lower-case `rejected` refuses and keeps the whole reply as its feedback.
   */
  function ReviewPlan(reply: Reply): (r: PlanReview)
    ensures reply.CallFailed? ==> r == PlanReview(true, [PlanReviewFailed(reply.error)], "", "")
    ensures reply.Completed? ==>
      (!r.approved <==> Contains(Upper(Cleaned(reply.text)), "REJECTED"))
    ensures reply.Completed? ==> r.warnings == []
    ensures r.approved ==> r.feedback == ""
    ensures !r.approved ==> r.suggestions == "" && ':' !in r.feedback
    ensures reply.Completed? && r.approved && Contains(Upper(Cleaned(reply.text)), "SUGGEST") ==>
      ':' !in r.suggestions && forall c :: c in r.suggestions ==> c in Cleaned(reply.text)
    ensures reply.Completed? && !Contains(Upper(Cleaned(reply.text)), "SUGGEST") ==> r.suggestions == ""
    // the feedback and the suggestions are cut from the reply as written, after the marker in its exact case
    ensures reply.Completed? && !r.approved ==> r.feedback == After(Cleaned(reply.text), "REJECTED")
    ensures reply.Completed? && r.approved && Contains(Upper(Cleaned(reply.text)), "SUGGEST") ==>
      r.suggestions == After(Cleaned(reply.text), "SUGGEST")
  {
    match reply
    case CallFailed(e) => PlanReview(true, [PlanReviewFailed(e)], "", "")
    case Completed(text) =>
      var out := Cleaned(text);
      var up := Upper(out);
      if Contains(up, "REJECTED") then PlanReview(false, [], "", After(out, "REJECTED"))
      else if Contains(up, "SUGGEST") then PlanReview(true, [], After(out, "SUGGEST"), "")
      else PlanReview(true, [], "", "")
  }
}

=== FILE: rules.dfy ===
/**
 * The rule engine: `TRMValidator._check_rules`, the static, model-free check
 * of one tool call. The checks run in the order the source runs them:
 *   1. deny-list on the string values of `path`, `filename` and `target_path`
 *      (with a soft warning for paths mentioning WINDOWS or SYSTEM32);
 *   2. for `delete_path`: refusal of a root alias, then a warning when the
 *      target is a directory;
 *   3. for `write_file`: refusal to overwrite an existing source-code file;
 *   4. for `git_push`: a warning when the branch is `main` (the default);
 *   5. the per-tool table of required arguments.
 * The first refusal ends the check and carries the warnings gathered so far.
 * The filesystem and `os.path.normpath` are oracles held in a `Platform`.
 */
module Rules {
  import opened Wrappers
  import opened Text
  import opened Values

  /** `DANGEROUS_PATHS`: system directories no path argument may start with. */
  const DangerousPaths: seq<string> :=
    ["C:\\Windows", "C:\\Program Files", "C:\\Program Files (x86)", "C:\\Users\\Default", "C:\\System32"]

  /** The argument names whose string values are checked against the deny-list, in order. */
  const PathArgNames: seq<string> := ["path", "filename", "target_path"]

  /** Raw `delete_path` targets refused outright, compared without normalisation. */
  const RootAliases: seq<string> := [".", "/", "\\", "C:\\", "D:\\"]

  /** Extensions (case-sensitive) of files `write_file` may not overwrite. */
  const CodeExtensions: seq<string> :=
    [".py", ".js", ".ts", ".java", ".cpp", ".c", ".h", ".cs", ".go", ".rs", ".rb", ".php"]

  /** The required arguments of each tool; `modify_file` deliberately omits `search_text`. */
  const RequiredArgs: map<string, seq<string>> := map[
    "write_file" := ["filename", "content"],
    "read_file" := ["filename"],
    "delete_path" := ["path"],
    "create_folder" := ["path"],
    "modify_file" := ["filename", "replacement_text"]
  ]

  /**
   * What the rule engine asks of the machine it runs on: `os.path.normpath`,
   * `os.path.exists`, `os.path.isdir` on a path, and `os.path.isdir` on an
   * integer, which Python reads as an open file descriptor.
   */
  datatype Platform = Platform(
    normPath: string -> string,
    pathExists: string -> bool,
    isDir: string -> bool,
    fdIsDir: int -> bool)

  /**
   * The exceptions `_check_rules` lets escape: a value of the wrong type, or
   * an integer file descriptor that does not fit a C `int`.
   */
  datatype Exception = TypeError | AttributeError | OverflowError

  /** The range of a C `int`, which `os.stat` converts an integer file descriptor to. */
  const MinFd: int := -0x8000_0000
  const MaxFd: int := 0x7FFF_FFFF

  /** A verdict on one tool call; `reason` is empty unless the call is refused. */
  datatype Verdict = Verdict(approved: bool, reason: string, warnings: seq<string>)

  /** The no-entry sign every refusal reason of the rule engine opens with. */
  const NoEntry: char := '\U{1F6AB}'

  /** A verdict as the rule engine gives them: a reason exactly when refused, opening with the no-entry sign. */
  predicate RuleVerdict(v: Verdict) {
    (v.approved <==> v.reason == "") && (v.reason != "" ==> v.reason[0] == NoEntry)
  }

  /** What the checks after the deny-list may raise: `isdir` on a bad delete target, `endswith` on a bad filename. */
  predicate StageException(tool: string, e: Exception) {
    (tool == "delete_path" && (e == TypeError || e == OverflowError)) || (tool == "write_file" && e == AttributeError)
  }

  /** The opening of the three hard refusals. */
  const Blocked: string := "\U{1F6AB} BLOQUÉ: "

  function ProtectedPathReason(entry: string): string {
    Blocked + "Chemin système protégé (" + entry + ")"
  }

  const RootDeletionReason: string := Blocked + "Tentative de suppression de la racine"

  function OverwriteReason(filename: string): string {
    Blocked + "write_file sur fichier de code existant '" + filename + "'. Utilise "
      + "modify_file" + " avec action='" + "append" + "' pour ajouter du code!"
  }

  function MissingArgumentReason(key: string): string {
    "\U{1F6AB} Argument manquant: " + key
  }

  function SensitivePathWarning(path: string): string {
    "\U{26A0}\U{FE0F} Attention: chemin sensible détecté (" + path + ")"
  }

  function DirectoryDeletionWarning(shown: string): string {
    "\U{26A0}\U{FE0F} Suppression d'un dossier: " + shown
  }

  const PushMainWarning: string := "\U{26A0}\U{FE0F} Push sur la branche main"

  /** Every refusal reason opens with the no-entry sign. */
  lemma ReasonsOpenWithNoEntry(entry: string, filename: string, key: string)
    ensures |ProtectedPathReason(entry)| > 0 && ProtectedPathReason(entry)[0] == NoEntry
    ensures |RootDeletionReason| > 0 && RootDeletionReason[0] == NoEntry
    ensures |OverwriteReason(filename)| > 0 && OverwriteReason(filename)[0] == NoEntry
    ensures |MissingArgumentReason(key)| > 0 && MissingArgumentReason(key)[0] == NoEntry
  {
    assert Blocked[0] == NoEntry;
  }

  /** `os.path.normpath(path).upper()`. */
  function NormalizedUpper(p: Platform, path: string): string {
    Upper(p.normPath(path))
  }

  /** `any(filename.endswith(ext) for ext in code_extensions)`. */
  predicate IsCodeFile(filename: string) {
    exists ext :: ext in CodeExtensions && EndsWith(filename, ext)
  }

  // ----- 1. deny-list -----

  /** The first entry of `entries` whose upper-cased form is a prefix of `norm`. */
  function FirstProtectedPrefix(norm: string, entries: seq<string>): (r: Option<string>)
    ensures r.None? <==> forall k :: 0 <= k < |entries| ==> !StartsWith(norm, Upper(entries[k]))
    ensures r.Some? ==> exists k :: 0 <= k < |entries| && entries[k] == r.value
                          && StartsWith(norm, Upper(entries[k]))
                          && forall j :: 0 <= j < k ==> !StartsWith(norm, Upper(entries[j]))
  {
    if entries == [] then None
    else if StartsWith(norm, Upper(entries[0])) then Some(entries[0])
    else
      var r := FirstProtectedPrefix(norm, entries[1..]);
      if r.Some? then
        var k :| 0 <= k < |entries[1..]| && entries[1..][k] == r.value
                 && StartsWith(norm, Upper(entries[1..][k]))
                 && forall j :: 0 <= j < k ==> !StartsWith(norm, Upper(entries[1..][j]));
        assert entries[k + 1] == r.value;
        assert forall j :: 0 <= j < k + 1 ==> !StartsWith(norm, Upper(entries[j])) by {
          forall j | 1 <= j < k + 1
            ensures !StartsWith(norm, Upper(entries[j]))
          {
            assert entries[j] == entries[1..][j - 1];
          }
        }
        r
      else
        assert forall k :: 1 <= k < |entries| ==> entries[k] == entries[1..][k - 1];
        r
  }

  /** The string value of argument `name`, normalised and upper-cased, starts with `entry` upper-cased. */
  ghost predicate Denies(p: Platform, args: Arguments, name: string, entry: string) {
    name in args && args[name].Str? && StartsWith(NormalizedUpper(p, args[name].s), Upper(entry))
  }

  /** Some path argument holds a string the deny-list refuses. */
  ghost predicate PathDenied(p: Platform, args: Arguments) {
    exists k, e :: 0 <= k < |PathArgNames| && e in DangerousPaths && Denies(p, args, PathArgNames[k], e)
  }

  /** The deny-list entry that refuses argument `name`: the first one its string value starts with, if any. */
  function DenyEntry(p: Platform, args: Arguments, name: string): (r: Option<string>)
    ensures r.Some? <==> exists e :: e in DangerousPaths && Denies(p, args, name, e)
    ensures r.Some? ==> r.value in DangerousPaths && Denies(p, args, name, r.value)
  {
    if name in args && args[name].Str? then
      var r := FirstProtectedPrefix(NormalizedUpper(p, args[name].s), DangerousPaths);
      if r.None? then
        assert forall e :: e in DangerousPaths ==> !Denies(p, args, name, e) by {
          forall e | e in DangerousPaths
            ensures !Denies(p, args, name, e)
          {
            var k :| 0 <= k < |DangerousPaths| && DangerousPaths[k] == e;
          }
        }
        r
      else
        var k :| 0 <= k < |DangerousPaths| && DangerousPaths[k] == r.value
                 && StartsWith(NormalizedUpper(p, args[name].s), Upper(DangerousPaths[k]));
        assert Denies(p, args, name, r.value);
        r
    else None
  }

  /** The string value of argument `name` mentions WINDOWS or SYSTEM32 once normalised and upper-cased. */
  predicate Sensitive(p: Platform, args: Arguments, name: string) {
    name in args && args[name].Str?
    && (Contains(NormalizedUpper(p, args[name].s), "WINDOWS")
        || Contains(NormalizedUpper(p, args[name].s), "SYSTEM32"))
  }

  datatype PathScan = Clear(warnings: seq<string>) | Denied(entry: string, warnings: seq<string>)

  function PrependWarnings(ws: seq<string>, scan: PathScan): PathScan {
    match scan
    case Clear(w) => Clear(ws + w)
    case Denied(e, w) => Denied(e, ws + w)
  }

  /**
   * The deny-list loop over the path arguments `names`, in order. A refusal
   * names a deny-list entry; at most one warning is gathered per argument.
   */
  function ScanPathArgs(p: Platform, args: Arguments, names: seq<string>): (r: PathScan)
    ensures r.Denied? ==> r.entry in DangerousPaths
    ensures |r.warnings| <= |names|
  {
    if names == [] then Clear([])
    else
      var name := names[0];
      var rest := ScanPathArgs(p, args, names[1..]);
      if name in args && args[name].Str? then
        var norm := NormalizedUpper(p, args[name].s);
        match FirstProtectedPrefix(norm, DangerousPaths)
        case Some(d) => Denied(d, [])
        case None =>
          var w := if Contains(norm, "WINDOWS") || Contains(norm, "SYSTEM32")
                   then [SensitivePathWarning(args[name].s)] else [];
          PrependWarnings(w, rest)
      else
        rest
  }

  /** The loop refuses exactly when some path argument is deny-listed, and names a matching entry. */
  lemma {:induction false} ScanDeniesExactly(p: Platform, args: Arguments, names: seq<string>)
    ensures ScanPathArgs(p, args, names).Denied? <==>
      exists k, e :: 0 <= k < |names| && e in DangerousPaths && Denies(p, args, names[k], e)
    ensures ScanPathArgs(p, args, names).Denied? ==>
      var d := ScanPathArgs(p, args, names).entry;
      d in DangerousPaths && exists k :: 0 <= k < |names| && Denies(p, args, names[k], d)
    // the refusal is for the first refused argument in the order of `names`, and names its first matching entry
    ensures ScanPathArgs(p, args, names).Denied? ==>
      exists k :: 0 <= k < |names| && DenyEntry(p, args, names[k]) == Some(ScanPathArgs(p, args, names).entry)
                  && forall j :: 0 <= j < k ==> DenyEntry(p, args, names[j]).None?
  {
    if names != [] {
      ScanDeniesExactly(p, args, names[1..]);
      assert forall k :: 1 <= k < |names| ==> names[k] == names[1..][k - 1];
      var name := names[0];
      if name in args && args[name].Str? {
        var norm := NormalizedUpper(p, args[name].s);
        match FirstProtectedPrefix(norm, DangerousPaths)
        case Some(d) =>
          var j :| 0 <= j < |DangerousPaths| && DangerousPaths[j] == d && StartsWith(norm, Upper(d));
          assert d in DangerousPaths;
          assert Denies(p, args, names[0], d);
          assert DenyEntry(p, args, names[0]) == Some(d);
        case None =>
          assert forall e :: e in DangerousPaths ==> !Denies(p, args, name, e);
          FirstAfterClear(p, args, names);
      } else {
        FirstAfterClear(p, args, names);
      }
    }
  }

  /** A first name that is not refused leaves the refusal, if any, to the rest of the names. */
  lemma ScanPastClearHead(p: Platform, args: Arguments, names: seq<string>)
    requires names != [] && DenyEntry(p, args, names[0]).None?
    ensures var r := ScanPathArgs(p, args, names);
      var rest := ScanPathArgs(p, args, names[1..]);
      r.Denied? ==> rest.Denied? && r.entry == rest.entry
  {
    var name := names[0];
    if name in args && args[name].Str? {
      assert FirstProtectedPrefix(NormalizedUpper(p, args[name].s), DangerousPaths).None?;
    }
  }

  /** When the first name lets the scan through, a refusal comes from a later name, the first refused one. */
  lemma FirstAfterClear(p: Platform, args: Arguments, names: seq<string>)
    requires names != [] && DenyEntry(p, args, names[0]).None?
    requires var rest := ScanPathArgs(p, args, names[1..]);
      rest.Denied? ==>
        exists k :: 0 <= k < |names[1..]| && DenyEntry(p, args, names[1..][k]) == Some(rest.entry)
                    && forall j :: 0 <= j < k ==> DenyEntry(p, args, names[1..][j]).None?
    ensures ScanPathArgs(p, args, names).Denied? ==>
      exists k :: 0 <= k < |names| && DenyEntry(p, args, names[k]) == Some(ScanPathArgs(p, args, names).entry)
                  && forall j :: 0 <= j < k ==> DenyEntry(p, args, names[j]).None?
  {
    var rest := ScanPathArgs(p, args, names[1..]);
    ScanPastClearHead(p, args, names);
    if rest.Denied? {
      var k :| 0 <= k < |names[1..]| && DenyEntry(p, args, names[1..][k]) == Some(rest.entry)
               && forall j :: 0 <= j < k ==> DenyEntry(p, args, names[1..][j]).None?;
      FirstShift(p, args, names, rest.entry, k);
    }
  }

  /** The first refused name after a clear head is the first refused name of the whole list, one place later. */
  lemma FirstShift(p: Platform, args: Arguments, names: seq<string>, e: string, k: nat)
    requires names != [] && DenyEntry(p, args, names[0]).None?
    requires k < |names| - 1 && DenyEntry(p, args, names[1..][k]) == Some(e)
    requires forall j :: 0 <= j < k ==> DenyEntry(p, args, names[1..][j]).None?
    ensures DenyEntry(p, args, names[k + 1]) == Some(e)
    ensures forall j :: 0 <= j < k + 1 ==> DenyEntry(p, args, names[j]).None?
  {
    assert names[k + 1] == names[1..][k];
    forall j | 0 <= j < k + 1
      ensures DenyEntry(p, args, names[j]).None?
    {
      if j > 0 {
        assert names[j] == names[1..][j - 1];
      }
    }
  }

  /**
   * A loop that lets every argument through warns exactly about the
   * sensitive ones. `ScanWarnsInOrder` gives the order and the cut at a
   * refusal.
   */
  lemma {:induction false} ScanWarnsExactly(p: Platform, args: Arguments, names: seq<string>)
    ensures ScanPathArgs(p, args, names).Clear? ==>
      forall k :: 0 <= k < |names| && Sensitive(p, args, names[k]) ==>
        SensitivePathWarning(args[names[k]].s) in ScanPathArgs(p, args, names).warnings
    ensures forall w :: w in ScanPathArgs(p, args, names).warnings ==>
      exists k :: 0 <= k < |names| && Sensitive(p, args, names[k]) && w == SensitivePathWarning(args[names[k]].s)
  {
    if names != [] {
      ScanWarnsExactly(p, args, names[1..]);
      assert forall k :: 1 <= k < |names| ==> names[k] == names[1..][k - 1];
    }
  }

  /**
   * One warning per sensitive string argument among `names`, front to back,
   * whether or not the argument is also deny-listed.
   */
  function SensitiveWarnings(p: Platform, args: Arguments, names: seq<string>): seq<string> {
    if names == [] then []
    else ArgWarnings(p, args, names[0]) + SensitiveWarnings(p, args, names[1..])
  }

  /** The warning a sensitive string argument `name` contributes, or none. */
  function ArgWarnings(p: Platform, args: Arguments, name: string): seq<string> {
    if Sensitive(p, args, name) then [SensitivePathWarning(args[name].s)] else []
  }

  /** Cutting the names after the first `n`: the first name's warnings, then those of the next `n - 1`. */
  lemma SensitiveWarningsOfPrefix(p: Platform, args: Arguments, names: seq<string>, n: nat)
    requires 0 < n <= |names|
    ensures SensitiveWarnings(p, args, names[..n])
            == ArgWarnings(p, args, names[0]) + SensitiveWarnings(p, args, names[1..][..n - 1])
  {
    TailOfPrefix(names, n);
  }

  /** The position of the first name the deny-list refuses, or `|names|` when none is. */
  function FirstRefused(p: Platform, args: Arguments, names: seq<string>): (k: nat)
    ensures k <= |names|
  {
    if names == [] || DenyEntry(p, args, names[0]).Some? then 0
    else 1 + FirstRefused(p, args, names[1..])
  }

  /** `FirstRefused` is the first refused position: every earlier name is let through. */
  lemma {:induction false} FirstRefusedIsFirst(p: Platform, args: Arguments, names: seq<string>)
    ensures var k := FirstRefused(p, args, names);
      && (k < |names| ==> DenyEntry(p, args, names[k]).Some?)
      && (forall j :: 0 <= j < k ==> DenyEntry(p, args, names[j]).None?)
  {
    if names != [] && DenyEntry(p, args, names[0]).None? {
      FirstRefusedIsFirst(p, args, names[1..]);
      var k := FirstRefused(p, args, names);
      assert forall j :: 1 <= j < |names| ==> names[j] == names[1..][j - 1];
    }
  }

  /**
   * The loop's warnings, in order: a clear loop gives one warning per
   * sensitive argument; a refusing loop stops at the first refused name and
   * returns with the warnings of the arguments before it only.
   */
  lemma {:induction false} ScanWarnsInOrder(p: Platform, args: Arguments, names: seq<string>)
    ensures var r := ScanPathArgs(p, args, names);
      r.Clear? ==> r.warnings == SensitiveWarnings(p, args, names)
    ensures var r := ScanPathArgs(p, args, names);
      var k := FirstRefused(p, args, names);
      r.Denied? ==>
        k < |names| && DenyEntry(p, args, names[k]) == Some(r.entry)
        && r.warnings == SensitiveWarnings(p, args, names[..k])
  {
    if names != [] {
      var name := names[0];
      var rest := ScanPathArgs(p, args, names[1..]);
      ScanWarnsInOrder(p, args, names[1..]);
      if name in args && args[name].Str? {
        var norm := NormalizedUpper(p, args[name].s);
        match FirstProtectedPrefix(norm, DangerousPaths)
        case Some(d) =>
          assert DenyEntry(p, args, name) == Some(d);
          assert names[..0] == [];
        case None =>
          assert DenyEntry(p, args, name).None?;
          assert ScanPathArgs(p, args, names) == PrependWarnings(ArgWarnings(p, args, name), rest);
          if rest.Denied? {
            ScanWarnsAfterClearHead(p, args, names, ScanPathArgs(p, args, names), rest);
          }
      } else {
        assert DenyEntry(p, args, name).None? && ArgWarnings(p, args, name) == [];
        assert ScanPathArgs(p, args, names) == PrependWarnings([], rest);
        if rest.Denied? {
          ScanWarnsAfterClearHead(p, args, names, ScanPathArgs(p, args, names), rest);
        }
      }
    }
  }

  /**
   * The inductive step of `ScanWarnsInOrder` when a later name is refused:
   * the scan `r` of `names` is the refusing scan `rest` of the names after a
   * first one that is let through.
   */
  lemma ScanWarnsAfterClearHead(p: Platform, args: Arguments, names: seq<string>, r: PathScan, rest: PathScan)
    requires names != [] && DenyEntry(p, args, names[0]).None?
    requires r == PrependWarnings(ArgWarnings(p, args, names[0]), rest) && rest.Denied?
    requires var k := FirstRefused(p, args, names[1..]);
      k < |names[1..]| && DenyEntry(p, args, names[1..][k]) == Some(rest.entry)
      && rest.warnings == SensitiveWarnings(p, args, names[1..][..k])
    ensures var k := FirstRefused(p, args, names);
      k < |names| && DenyEntry(p, args, names[k]) == Some(r.entry)
      && r.warnings == SensitiveWarnings(p, args, names[..k])
  {
    var k := FirstRefused(p, args, names[1..]);
    assert FirstRefused(p, args, names) == k + 1;
    assert names[k + 1] == names[1..][k];
    SensitiveWarningsOfPrefix(p, args, names, k + 1);
  }

  // ----- 2. delete_path -----

  /** `delete_path` whose raw `path` argument is exactly a root alias. */
  predicate DeletesRoot(tool: string, args: Arguments) {
    tool == "delete_path" && "path" in args && args["path"].Str? && args["path"].s in RootAliases
  }

  /**
   * What `os.path.isdir(v)` does: a path or a file descriptor is probed; an
   * integer outside the C `int` range raises `OverflowError`, which `isdir`
   * does not catch, and any other value raises `TypeError`.
   */
  function IsDirProbe(p: Platform, v: Value): Result<bool, Exception> {
    match v
    case Str(s) => Success(p.isDir(s))
    case Int(i) => if i < MinFd || i > MaxFd then Failure(OverflowError) else Success(p.fdIsDir(i))
    case Bool(b) => Success(p.fdIsDir(if b then 1 else 0))
    case _ => Failure(TypeError)
  }

  /** Python's `str(v)` for the values `os.path.isdir` accepts. */
  function Show(v: Value): string
    requires v.Str? || v.Int? || v.Bool?
  {
    match v
    case Str(s) => s
    case Int(i) => IntToDecimal(i)
    case Bool(b) => if b then "True" else "False"
  }

  /** From the delete check on: it raises only as `StageException` allows and keeps the warnings `ws` in front. */
  function CheckDelete(p: Platform, tool: string, args: Arguments, ws: seq<string>): (r: Result<Verdict, Exception>)
    ensures r.Failure? ==> StageException(tool, r.error)
    ensures r.Success? ==> RuleVerdict(r.value) && StartsWith(r.value.warnings, ws)
  {
    if tool != "delete_path" then CheckWrite(p, tool, args, ws)
    else
      var target := Get(args, "path", Str(""));
      if target.Str? && target.s in RootAliases then
        ReasonsOpenWithNoEntry("", "", "");
        Success(Verdict(false, RootDeletionReason, ws))
      else
        match IsDirProbe(p, target)
        case Failure(e) => Failure(e)
        case Success(isDir) =>
          var r := CheckWrite(p, tool, args, ws + if isDir then [DirectoryDeletionWarning(Show(target))] else []);
          assert r.Success? ==> r.value.warnings[..|ws|] == ws by {
            if r.Success? {
              var ws' := ws + if isDir then [DirectoryDeletionWarning(Show(target))] else [];
              assert r.value.warnings[..|ws'|] == ws';
              assert ws'[..|ws|] == ws;
            }
          }
          r
  }

  // ----- 3. write_file -----

  /** `write_file` onto an existing file with a source-code extension. */
  predicate OverwritesCode(p: Platform, tool: string, args: Arguments) {
    tool == "write_file" && "filename" in args && args["filename"].Str?
    && IsCodeFile(args["filename"].s) && p.pathExists(args["filename"].s)
  }

  /** From the write check on: it raises only on a `write_file` filename that is not a string. */
  function CheckWrite(p: Platform, tool: string, args: Arguments, ws: seq<string>): (r: Result<Verdict, Exception>)
    ensures r.Failure? ==> tool == "write_file" && r.error == AttributeError
    ensures r.Success? ==> RuleVerdict(r.value) && StartsWith(r.value.warnings, ws)
  {
    if tool != "write_file" then CheckPush(tool, args, ws)
    else
      var filename := Get(args, "filename", Str(""));
      if !filename.Str? then Failure(AttributeError)
      else if IsCodeFile(filename.s) && p.pathExists(filename.s) then
        ReasonsOpenWithNoEntry("", filename.s, "");
        Success(Verdict(false, OverwriteReason(filename.s), ws))
      else CheckPush(tool, args, ws)
  }

  // ----- 4. git_push -----

  /** `git_push` whose `branch` argument is absent (defaulting to main) or is `"main"`. */
  predicate PushesMain(tool: string, args: Arguments) {
    tool == "git_push" && Get(args, "branch", Str("main")) == Str("main")
  }

  /** From the push check on: it never raises and keeps the warnings `ws` in front. */
  function CheckPush(tool: string, args: Arguments, ws: seq<string>): (r: Result<Verdict, Exception>)
    ensures r.Success? && RuleVerdict(r.value) && StartsWith(r.value.warnings, ws)
  {
    var ws' := ws + if PushesMain(tool, args) then [PushMainWarning] else [];
    assert ws'[..|ws|] == ws;
    CheckRequired(tool, args, ws')
  }

  // ----- 5. required arguments -----

  /** The first key of `keys` that is absent or falsy in `args`. */
  function FirstMissing(args: Arguments, keys: seq<string>): (r: Option<nat>)
    ensures r.None? <==> forall j :: 0 <= j < |keys| ==> Provided(args, keys[j])
    ensures r.Some? ==> r.value < |keys| && !Provided(args, keys[r.value])
                        && forall j :: 0 <= j < r.value ==> Provided(args, keys[j])
  {
    if keys == [] then None
    else if !Provided(args, keys[0]) then Some(0)
    else
      match FirstMissing(args, keys[1..])
      case None => None
      case Some(j) => Some(j + 1)
  }

  /** A tool listed in the table lacks one of its required arguments. */
  predicate MissingRequired(tool: string, args: Arguments) {
    tool in RequiredArgs && exists key :: key in RequiredArgs[tool] && !Provided(args, key)
  }

  /** The required-argument check: it never raises and adds no warning. */
  function CheckRequired(tool: string, args: Arguments, ws: seq<string>): (r: Result<Verdict, Exception>)
    ensures r.Success? && RuleVerdict(r.value) && r.value.warnings == ws
  {
    if tool !in RequiredArgs then Success(Verdict(true, "", ws))
    else
      match FirstMissing(args, RequiredArgs[tool])
      case Some(j) => Success(Verdict(false, MissingArgumentReason(RequiredArgs[tool][j]), ws))
      case None => Success(Verdict(true, "", ws))
  }

  // ----- the whole check -----

  /** The argument values on which the checks after the deny-list raise instead of returning. */
  predicate RaisesOnValue(p: Platform, tool: string, args: Arguments) {
    || (tool == "delete_path" && IsDirProbe(p, Get(args, "path", Str(""))).Failure?)
    || (tool == "write_file" && !Get(args, "filename", Str("")).Str?)
  }

  /** The warnings the delete and push checks add to `ws` on their way to the required-argument check. */
  function StageWarnings(p: Platform, tool: string, args: Arguments, ws: seq<string>): seq<string> {
    var target := Get(args, "path", Str(""));
    var dirWarning :=
      if tool == "delete_path" && IsDirProbe(p, target) == Success(true)
      then [DirectoryDeletionWarning(Show(target))] else [];
    ws + dirWarning + if PushesMain(tool, args) then [PushMainWarning] else []
  }

  lemma RequiredStage(tool: string, args: Arguments, ws: seq<string>)
    ensures var r := CheckRequired(tool, args, ws);
      && r.Success? && r.value.warnings == ws
      && (r.value.approved <==> !MissingRequired(tool, args))
      && (r.value.approved <==> r.value.reason == "")
      && (!r.value.approved ==>
            exists j :: 0 <= j < |RequiredArgs[tool]| && !Provided(args, RequiredArgs[tool][j])
                        && (forall i :: 0 <= i < j ==> Provided(args, RequiredArgs[tool][i]))
                        && r.value.reason == MissingArgumentReason(RequiredArgs[tool][j]))
  {
    if tool in RequiredArgs {
      var keys := RequiredArgs[tool];
      match FirstMissing(args, keys)
      case Some(j) =>
        assert keys[j] in keys;
      case None =>
        assert forall key :: key in keys ==> Provided(args, key);
    }
  }

  /** The checks after the deny-list raise exactly on a wrong-typed target. */
  lemma StagesRaise(p: Platform, tool: string, args: Arguments, ws: seq<string>)
    ensures CheckDelete(p, tool, args, ws).Failure? <==> RaisesOnValue(p, tool, args)
  {
    RequiredStage(tool, args, StageWarnings(p, tool, args, ws));
    RequiredStage(tool, args, ws + if PushesMain(tool, args) then [PushMainWarning] else []);
  }

  /** For `delete_path`, past the root refusal, what is left is the required-argument check. */
  lemma DeleteReachesRequired(p: Platform, args: Arguments, ws: seq<string>)
    requires !DeletesRoot("delete_path", args) && !RaisesOnValue(p, "delete_path", args)
    ensures CheckDelete(p, "delete_path", args, ws)
            == CheckRequired("delete_path", args, StageWarnings(p, "delete_path", args, ws))
  {
    var target := Get(args, "path", Str(""));
    var dirWarning := if IsDirProbe(p, target) == Success(true)
                      then [DirectoryDeletionWarning(Show(target))] else [];
    assert !PushesMain("delete_path", args);
    assert StageWarnings(p, "delete_path", args, ws) == ws + dirWarning + [];
    assert CheckDelete(p, "delete_path", args, ws) == CheckWrite(p, "delete_path", args, ws + dirWarning);
  }

  /** For any other tool, past the overwrite refusal, what is left is the required-argument check. */
  lemma OtherReachesRequired(p: Platform, tool: string, args: Arguments, ws: seq<string>)
    requires tool != "delete_path" && !OverwritesCode(p, tool, args) && !RaisesOnValue(p, tool, args)
    ensures CheckDelete(p, tool, args, ws) == CheckRequired(tool, args, StageWarnings(p, tool, args, ws))
  {
    var push: seq<string> := if PushesMain(tool, args) then [PushMainWarning] else [];
    assert StageWarnings(p, tool, args, ws) == ws + push;
    if tool == "write_file" {
      var filename := Get(args, "filename", Str(""));
      assert filename.Str?;
      assert !(IsCodeFile(filename.s) && p.pathExists(filename.s));
    }
    assert CheckWrite(p, tool, args, ws) == CheckPush(tool, args, ws);
  }

  /** Past the refusing delete and write checks, what is left is the required-argument check. */
  lemma StagesReachRequired(p: Platform, tool: string, args: Arguments, ws: seq<string>)
    requires !DeletesRoot(tool, args) && !OverwritesCode(p, tool, args) && !RaisesOnValue(p, tool, args)
    ensures CheckDelete(p, tool, args, ws) == CheckRequired(tool, args, StageWarnings(p, tool, args, ws))
  {
    if tool == "delete_path" {
      DeleteReachesRequired(p, args, ws);
    } else {
      OtherReachesRequired(p, tool, args, ws);
    }
  }

  /**
   * `_check_rules(tool_name, arguments)`. It raises only as `StageException`
   * allows; a verdict has a reason exactly when it refuses, and every reason
   * opens with the no-entry sign.
   */
  function CheckRules(p: Platform, tool: string, args: Arguments): (r: Result<Verdict, Exception>)
    ensures r.Failure? ==> StageException(tool, r.error)
    ensures r.Success? ==> RuleVerdict(r.value)
  {
    match ScanPathArgs(p, args, PathArgNames)
    case Denied(entry, ws) => Success(Verdict(false, ProtectedPathReason(entry), ws))
    case Clear(ws) => CheckDelete(p, tool, args, ws)
  }

  /** It raises exactly on a wrong-typed delete or write target that the deny-list let through. */
  lemma CheckRulesRaises(p: Platform, tool: string, args: Arguments)
    ensures CheckRules(p, tool, args).Failure? <==> !PathDenied(p, args) && RaisesOnValue(p, tool, args)
  {
    ScanDeniesExactly(p, args, PathArgNames);
    StagesRaise(p, tool, args, ScanPathArgs(p, args, PathArgNames).warnings);
  }

  /**
   * Warnings never refuse: a verdict is a refusal exactly when one of the four
   * refusing rules fires, and it has a reason exactly when it is a refusal.
   */
  lemma CheckRulesApproval(p: Platform, tool: string, args: Arguments)
    ensures CheckRules(p, tool, args).Success? ==>
      (CheckRules(p, tool, args).value.approved <==>
        !PathDenied(p, args) && !DeletesRoot(tool, args) && !OverwritesCode(p, tool, args)
        && !MissingRequired(tool, args))
    ensures CheckRules(p, tool, args).Success? ==>
      (CheckRules(p, tool, args).value.approved <==> CheckRules(p, tool, args).value.reason == "")
  {
    ScanDeniesExactly(p, args, PathArgNames);
    var scan := ScanPathArgs(p, args, PathArgNames);
    if !PathDenied(p, args) && !DeletesRoot(tool, args) && !OverwritesCode(p, tool, args)
       && !RaisesOnValue(p, tool, args) {
      StagesReachRequired(p, tool, args, scan.warnings);
      RequiredStage(tool, args, StageWarnings(p, tool, args, scan.warnings));
    }
  }

  /** The deny-list comes first; its refusal names a protected entry that some path argument starts with. */
  lemma CheckRulesDenyList(p: Platform, tool: string, args: Arguments)
    requires PathDenied(p, args)
    ensures var r := CheckRules(p, tool, args);
      r.Success? && !r.value.approved
      && exists e, k :: e in DangerousPaths && 0 <= k < |PathArgNames|
                        && Denies(p, args, PathArgNames[k], e)
                        && r.value.reason == ProtectedPathReason(e)
    // the entry named is the first matching one of the first refused argument in `path`, `filename`, `target_path` order
    ensures var r := CheckRules(p, tool, args);
      exists k :: 0 <= k < |PathArgNames| && (forall j :: 0 <= j < k ==> DenyEntry(p, args, PathArgNames[j]).None?)
                  && DenyEntry(p, args, PathArgNames[k]).Some?
                  && r.value.reason == ProtectedPathReason(DenyEntry(p, args, PathArgNames[k]).value)
  {
    ScanDeniesExactly(p, args, PathArgNames);
    var scan := ScanPathArgs(p, args, PathArgNames);
    assert scan.Denied?;
    DeniedVerdict(p, tool, args);
    var k :| 0 <= k < |PathArgNames| && DenyEntry(p, args, PathArgNames[k]) == Some(scan.entry)
             && forall j :: 0 <= j < k ==> DenyEntry(p, args, PathArgNames[j]).None?;
    assert scan.entry in DangerousPaths && Denies(p, args, PathArgNames[k], scan.entry);
  }

  /**
   * A refusing deny-list scan is the verdict, whatever the tool. It carries
   * the warnings gathered before the refusal: those of the sensitive
   * arguments ahead of the first refused one, in order.
   */
  lemma DeniedVerdict(p: Platform, tool: string, args: Arguments)
    requires ScanPathArgs(p, args, PathArgNames).Denied?
    ensures var scan := ScanPathArgs(p, args, PathArgNames);
      CheckRules(p, tool, args) == Success(Verdict(false, ProtectedPathReason(scan.entry), scan.warnings))
    ensures CheckRules(p, tool, args).value.warnings
            == SensitiveWarnings(p, args, PathArgNames[..FirstRefused(p, args, PathArgNames)])
  {
    ScanWarnsInOrder(p, args, PathArgNames);
  }

  /** Root deletion is refused on the raw string, before any filesystem query. */
  lemma CheckRulesRootDeletion(p: Platform, tool: string, args: Arguments)
    requires !PathDenied(p, args) && DeletesRoot(tool, args)
    ensures CheckRules(p, tool, args)
            == Success(Verdict(false, RootDeletionReason, ScanPathArgs(p, args, PathArgNames).warnings))
  {
    ScanDeniesExactly(p, args, PathArgNames);
  }

  /** Overwriting an existing code file is refused with a reason pointing to `modify_file` with `append`. */
  lemma CheckRulesOverwrite(p: Platform, tool: string, args: Arguments)
    requires !PathDenied(p, args) && OverwritesCode(p, tool, args)
    ensures var r := CheckRules(p, tool, args);
      r.Success? && !r.value.approved && r.value.reason == OverwriteReason(args["filename"].s)
      && Contains(r.value.reason, "modify_file") && Contains(r.value.reason, "append")
    // the refusal returns with the scan's warnings and no other
    ensures CheckRules(p, tool, args).value.warnings == ScanPathArgs(p, args, PathArgNames).warnings
            == SensitiveWarnings(p, args, PathArgNames)
  {
    ScanDeniesExactly(p, args, PathArgNames);
    ScanWarnsInOrder(p, args, PathArgNames);
    var head := Blocked + "write_file sur fichier de code existant '" + args["filename"].s + "'. Utilise ";
    ContainsSelf("modify_file");
    ContainsConcat(head, "modify_file", "modify_file");
    ContainsConcat(head + "modify_file", " avec action='", "modify_file");
    ContainsConcat(head + "modify_file" + " avec action='", "append", "modify_file");
    ContainsConcat(head + "modify_file" + " avec action='" + "append", "' pour ajouter du code!", "modify_file");
    ContainsSelf("append");
    ContainsConcat(head + "modify_file" + " avec action='", "append", "append");
    ContainsConcat(head + "modify_file" + " avec action='" + "append", "' pour ajouter du code!", "append");
  }

  /** A missing argument is reported only when nothing earlier refused, and it names the first one missing. */
  lemma CheckRulesMissingArgument(p: Platform, tool: string, args: Arguments)
    requires !PathDenied(p, args) && !DeletesRoot(tool, args) && !OverwritesCode(p, tool, args)
    requires !RaisesOnValue(p, tool, args) && MissingRequired(tool, args)
    ensures var r := CheckRules(p, tool, args);
      r.Success? && !r.value.approved
      && exists j :: 0 <= j < |RequiredArgs[tool]| && !Provided(args, RequiredArgs[tool][j])
                     && (forall i :: 0 <= i < j ==> Provided(args, RequiredArgs[tool][i]))
                     && r.value.reason == MissingArgumentReason(RequiredArgs[tool][j])
  {
    ScanDeniesExactly(p, args, PathArgNames);
    var scan := ScanPathArgs(p, args, PathArgNames);
    StagesReachRequired(p, tool, args, scan.warnings);
    RequiredStage(tool, args, StageWarnings(p, tool, args, scan.warnings));
  }

  /**
   * The warnings of a verdict that was reached: a sensitive path, a directory
   * deletion and a push to `main` are each reported and none of them refuses.
   */
  lemma CheckRulesWarnings(p: Platform, tool: string, args: Arguments)
    requires !PathDenied(p, args)
    ensures var r := CheckRules(p, tool, args);
      r.Success? ==> forall k :: 0 <= k < |PathArgNames| && Sensitive(p, args, PathArgNames[k]) ==>
        SensitivePathWarning(args[PathArgNames[k]].s) in r.value.warnings
    ensures var r := CheckRules(p, tool, args);
      tool == "delete_path" && !DeletesRoot(tool, args) && "path" in args && args["path"].Str?
      && p.isDir(args["path"].s) ==>
        r.Success? && DirectoryDeletionWarning(args["path"].s) in r.value.warnings
    ensures var r := CheckRules(p, tool, args);
      PushesMain(tool, args) ==> r.Success? && r.value.approved && PushMainWarning in r.value.warnings
  {
    ScanDeniesExactly(p, args, PathArgNames);
    ScanWarnsExactly(p, args, PathArgNames);
    CheckRulesApproval(p, tool, args);
    CheckRulesRaises(p, tool, args);
    var scan := ScanPathArgs(p, args, PathArgNames);
    if !DeletesRoot(tool, args) && !OverwritesCode(p, tool, args) && !RaisesOnValue(p, tool, args) {
      StagesReachRequired(p, tool, args, scan.warnings);
      RequiredStage(tool, args, StageWarnings(p, tool, args, scan.warnings));
    }
  }

  /** Two argument maps that agree on the string values of `names` get the same deny-list scan. */
  lemma {:induction false} ScanSeesOnlyStrings(p: Platform, a: Arguments, b: Arguments, names: seq<string>)
    requires forall k :: 0 <= k < |names| ==>
      (names[k] in a && a[names[k]].Str?) == (names[k] in b && b[names[k]].Str?)
    requires forall k :: 0 <= k < |names| && names[k] in a && a[names[k]].Str? ==> a[names[k]] == b[names[k]]
    ensures ScanPathArgs(p, a, names) == ScanPathArgs(p, b, names)
  {
    if names != [] {
      assert forall k :: 1 <= k < |names| ==> names[k] == names[1..][k - 1];
      ScanSeesOnlyStrings(p, a, b, names[1..]);
    }
  }

  /** The deny-list ignores a path argument whose value is not a string. */
  lemma DenyListIgnoresNonStrings(p: Platform, args: Arguments, name: string, v: Value)
    requires !v.Str?
    ensures ScanPathArgs(p, args[name := v], PathArgNames) == ScanPathArgs(p, args - {name}, PathArgNames)
    ensures PathDenied(p, args[name := v]) <==> PathDenied(p, args - {name})
  {
    ScanSeesOnlyStrings(p, args[name := v], args - {name}, PathArgNames);
    ScanDeniesExactly(p, args[name := v], PathArgNames);
    ScanDeniesExactly(p, args - {name}, PathArgNames);
  }

  /** `modify_file` never looks at `search_text`: an empty anchor (append at the end) is as good as none. */
  lemma ModifyFileIgnoresSearchText(p: Platform, args: Arguments, v: Value)
    ensures CheckRules(p, "modify_file", args["search_text" := v]) == CheckRules(p, "modify_file", args - {"search_text"})
  {
    var a := args["search_text" := v];
    var b := args - {"search_text"};
    ScanSeesOnlyStrings(p, a, b, PathArgNames);
    var keys := RequiredArgs["modify_file"];
    assert forall j :: 0 <= j < |keys| ==> (Provided(a, keys[j]) <==> Provided(b, keys[j]));
    FirstMissingAgrees(a, b, keys);
  }

  lemma {:induction false} FirstMissingAgrees(a: Arguments, b: Arguments, keys: seq<string>)
    requires forall j :: 0 <= j < |keys| ==> (Provided(a, keys[j]) <==> Provided(b, keys[j]))
    ensures FirstMissing(a, keys) == FirstMissing(b, keys)
  {
    if keys != [] {
      assert forall j :: 1 <= j < |keys| ==> keys[j] == keys[1..][j - 1];
      FirstMissingAgrees(a, b, keys[1..]);
    }
  }

  /** Whatever starts with `C:\Program Files (x86)` also starts with the earlier entry `C:\Program Files`. */
  lemma FirstProtectedPrefixSkipsX86(norm: string)
    ensures FirstProtectedPrefix(norm, DangerousPaths) != Some("C:\\Program Files (x86)")
  {
    var x86 := Upper("C:\\Program Files (x86)");
    var pf := Upper("C:\\Program Files");
    if StartsWith(norm, x86) {
      assert x86[..|pf|] == pf;
      assert norm[..|pf|] == x86[..|pf|];
      assert StartsWith(norm, Upper(DangerousPaths[1]));
    }
  }

  /** The deny-list never names `C:\Program Files (x86)`: the entry is shadowed by `C:\Program Files`. */
  lemma {:induction false} ScanNeverNamesX86(p: Platform, args: Arguments, names: seq<string>)
    ensures ScanPathArgs(p, args, names).Denied? ==>
      ScanPathArgs(p, args, names).entry != "C:\\Program Files (x86)"
  {
    if names != [] {
      ScanNeverNamesX86(p, args, names[1..]);
      var name := names[0];
      if name in args && args[name].Str? {
        FirstProtectedPrefixSkipsX86(NormalizedUpper(p, args[name].s));
      }
    }
  }
}

=== FILE: text.dfy ===
/**
 * The Python `str` operations the validator relies on, over `string` (a
 * sequence of Unicode scalar values): `in`, `startswith`, `endswith`,
 * `split(sep)[-1]`, `replace(c, "")`, `strip()`, `upper()`, `lower()`,
 * `sep.join(parts)` and `str(n)` for integers.
 */
module Text {
  import opened Wrappers

  /** `s` begins with `prefix` (Python's `startswith`, also used for lists). */
  predicate StartsWith<T(==)>(s: seq<T>, prefix: seq<T>) {
    |prefix| <= |s| && s[..|prefix|] == prefix
  }

  /** `s` ends with `suffix`. */
  predicate EndsWith<T(==)>(s: seq<T>, suffix: seq<T>) {
    |suffix| <= |s| && s[|s| - |suffix|..] == suffix
  }

  /** A prefix of a prefix is a prefix. */
  lemma StartsWithTrans<T>(s: seq<T>, mid: seq<T>, prefix: seq<T>)
    requires StartsWith(s, mid) && StartsWith(mid, prefix)
    ensures StartsWith(s, prefix)
  {
    forall k | 0 <= k < |prefix|
      ensures s[k] == prefix[k]
    {
      assert s[k] == mid[k];
    }
  }

  /** A suffix of a suffix is a suffix. */
  lemma EndsWithTrans<T>(s: seq<T>, mid: seq<T>, suffix: seq<T>)
    requires EndsWith(s, mid) && EndsWith(mid, suffix)
    ensures EndsWith(s, suffix)
  {
    forall k | 0 <= k < |suffix|
      ensures s[|s| - |suffix| + k] == suffix[k]
    {
      assert s[|s| - |suffix| + k] == mid[|mid| - |suffix| + k];
    }
  }

  /** `sub` occurs in `s` starting at index `i`. */
  predicate OccursAt(s: string, sub: string, i: int) {
    0 <= i && i + |sub| <= |s| && s[i..i + |sub|] == sub
  }

  /** Python's `sub in s`. */
  predicate Contains(s: string, sub: string) {
    exists i :: 0 <= i <= |s| && OccursAt(s, sub, i)
  }

  /** The first occurrence of `sub` in `s` at or after index `k`. */
  function IndexFrom(s: string, sub: string, k: nat): (r: Option<nat>)
    decreases |s| - k
    ensures r.Some? ==> k <= r.value && OccursAt(s, sub, r.value)
    ensures r.Some? ==> forall j :: k <= j < r.value ==> !OccursAt(s, sub, j)
    ensures r.None? ==> forall j :: k <= j ==> !OccursAt(s, sub, j)
  {
    if k + |sub| > |s| then None
    else if s[k..k + |sub|] == sub then Some(k)
    else IndexFrom(s, sub, k + 1)
  }

  /** The first occurrence of `sub` in `s` (Python's `s.find(sub)`, with `None` for -1). */
  function IndexOf(s: string, sub: string): (r: Option<nat>)
    ensures r.Some? ==> OccursAt(s, sub, r.value)
    ensures r.Some? ==> forall j :: 0 <= j < r.value ==> !OccursAt(s, sub, j)
    ensures r.None? <==> !Contains(s, sub)
  {
    IndexFrom(s, sub, 0)
  }

  /** Every string occurs in itself. */
  lemma ContainsSelf(s: string)
    ensures Contains(s, s)
  {
    assert OccursAt(s, s, 0);
  }

  /** Whatever occurs in either half occurs in the concatenation. */
  lemma ContainsConcat(a: string, b: string, sub: string)
    requires Contains(a, sub) || Contains(b, sub)
    ensures Contains(a + b, sub)
  {
    if Contains(a, sub) {
      var i :| 0 <= i <= |a| && OccursAt(a, sub, i);
      assert (a + b)[i..i + |sub|] == a[i..i + |sub|];
      assert OccursAt(a + b, sub, i);
    } else {
      var i :| 0 <= i <= |b| && OccursAt(b, sub, i);
      assert (a + b)[|a| + i..|a| + i + |sub|] == b[i..i + |sub|];
      assert OccursAt(a + b, sub, |a| + i);
    }
  }

  /** Whatever occurs in a slice of `s` occurs in `s`. */
  lemma ContainsInSlice(s: string, a: nat, b: nat, sub: string)
    requires a <= b <= |s| && Contains(s[a..b], sub)
    ensures Contains(s, sub)
  {
    var t := s[a..b];
    var i :| 0 <= i <= |t| && OccursAt(t, sub, i);
    assert i + |sub| <= |t| && t[i..i + |sub|] == sub;
    forall m | 0 <= m < |sub|
      ensures s[a + i + m] == sub[m]
    {
      assert t[i + m] == sub[m];
    }
    assert s[a + i..a + i + |sub|] == sub;
    assert OccursAt(s, sub, a + i);
  }

  /** A string one of whose characters is missing from `s` does not occur in `s`. */
  lemma MissingCharNotContained(s: string, sub: string, k: nat)
    requires k < |sub| && sub[k] !in s
    ensures !Contains(s, sub)
  {
  }

  /**
   * Python's `s.split(sep)[-1]`: `split` cuts at the leftmost occurrence and
   * carries on in what follows, so the last piece is what is left after the
   * final cut, or the whole string when `sep` does not occur.
   */
  function LastPiece(s: string, sep: string): (r: string)
    requires |sep| > 0
    decreases |s|
    ensures EndsWith(s, r)
    ensures !Contains(r, sep)
    ensures !Contains(s, sep) ==> r == s
    ensures Contains(s, sep) ==> exists i :: OccursAt(s, sep, i) && r == s[i + |sep|..]
  {
    match IndexOf(s, sep)
    case None => s
    case Some(i) =>
      var rest := s[i + |sep|..];
      var r := LastPiece(rest, sep);
      assert EndsWith(s, rest);
      EndsWithTrans(s, rest, r);
      LastPieceStep(s, sep, i, r);
      r
  }

  /** A piece cut after some occurrence in what follows the occurrence at `i` is cut after an occurrence in `s`. */
  lemma LastPieceStep(s: string, sep: string, i: nat, r: string)
    requires OccursAt(s, sep, i)
    requires var rest := s[i + |sep|..];
      && (Contains(rest, sep) ==> exists k :: OccursAt(rest, sep, k) && r == rest[k + |sep|..])
      && (!Contains(rest, sep) ==> r == rest)
    ensures exists j :: OccursAt(s, sep, j) && r == s[j + |sep|..]
  {
    var rest := s[i + |sep|..];
    if Contains(rest, sep) {
      var k :| OccursAt(rest, sep, k) && r == rest[k + |sep|..];
      var j := i + |sep| + k;
      assert s[j..j + |sep|] == rest[k..k + |sep|];
      assert OccursAt(s, sep, j) && r == s[j + |sep|..];
    } else {
      assert OccursAt(s, sep, i) && r == s[i + |sep|..];
    }
  }

  /** No proper suffix of `sep` is also a prefix of it, so two occurrences of `sep` never overlap. */
  predicate SelfOverlapFree(sep: string) {
    forall k :: 0 < k < |sep| ==> sep[k..] != sep[..|sep| - k]
  }

  /** A separator whose first character does not occur again cannot overlap itself. */
  lemma HeadOnceOverlapFree(sep: string)
    requires |sep| > 0 && forall k :: 0 < k < |sep| ==> sep[k] != sep[0]
    ensures SelfOverlapFree(sep)
  {
    forall k | 0 < k < |sep|
      ensures sep[k..] != sep[..|sep| - k]
    {
      assert sep[k..][0] != sep[..|sep| - k][0];
    }
  }

  /**
   * For a separator that cannot overlap itself, the last piece is exactly what
   * follows the last occurrence.
   */
  lemma LastPieceAfterLast(s: string, sep: string)
    requires |sep| > 0 && SelfOverlapFree(sep) && Contains(s, sep)
    ensures exists i :: OccursAt(s, sep, i) && (forall j :: i < j ==> !OccursAt(s, sep, j))
                        && LastPiece(s, sep) == s[i + |sep|..]
  {
    var r := LastPiece(s, sep);
    var i :| OccursAt(s, sep, i) && r == s[i + |sep|..];
    forall j | i < j
      ensures !OccursAt(s, sep, j)
    {
      if j + |sep| <= |s| {
        if j >= i + |sep| {
          NoOccurrenceInPiece(s, sep, i, r, j);
        } else {
          NoOverlappingOccurrence(s, sep, i, j);
        }
      }
    }
  }

  /** An occurrence lying wholly after the cut at `i` would be an occurrence in the piece. */
  lemma NoOccurrenceInPiece(s: string, sep: string, i: nat, r: string, j: int)
    requires i + |sep| <= j && j + |sep| <= |s| && r == s[i + |sep|..] && !Contains(r, sep)
    ensures !OccursAt(s, sep, j)
  {
    var k := j - (i + |sep|);
    assert !OccursAt(r, sep, k);
    assert r[k..k + |sep|] == s[j..j + |sep|];
  }

  /** A separator that cannot overlap itself has no occurrence starting inside another. */
  lemma NoOverlappingOccurrence(s: string, sep: string, i: nat, j: int)
    requires SelfOverlapFree(sep) && OccursAt(s, sep, i) && i < j < i + |sep| && j + |sep| <= |s|
    ensures !OccursAt(s, sep, j)
  {
    var d := j - i;
    assert s[i..i + |sep|] == sep;
    assert s[j..i + |sep|] == sep[d..];
    assert sep[d..] != sep[..|sep| - d];
    assert s[j..j + |sep|][..|sep| - d] == s[j..i + |sep|];
  }

  /** The tail of a non-empty prefix is the prefix of the tail. */
  lemma TailOfPrefix<T>(s: seq<T>, n: nat)
    requires 0 < n <= |s|
    ensures s[..n][0] == s[0] && s[..n][1..] == s[1..][..n - 1]
  {
  }

  /** Python's `s.replace(c, "")` for a one-character `c`. */
  function RemoveChar(s: string, c: char): (r: string)
    ensures forall x :: x in r <==> x in s && x != c
  {
    if s == [] then []
    else (if s[0] == c then [] else [s[0]]) + RemoveChar(s[1..], c)
  }

  /** Every occurrence of `c` goes and every other character stays as often as it was. */
  lemma {:induction false} RemoveCharCounts(s: string, c: char)
    ensures multiset(RemoveChar(s, c)) == multiset(s)[c := 0]
  {
    if s != [] {
      RemoveCharCounts(s[1..], c);
      assert s == [s[0]] + s[1..];
    }
  }

  /**
   * Removal works piecewise, so the characters that remain keep their order:
   * removing from `a + b` is removing from `a`, then from `b`.
   */
  lemma {:induction false} RemoveCharConcat(a: string, b: string, c: char)
    ensures RemoveChar(a + b, c) == RemoveChar(a, c) + RemoveChar(b, c)
  {
    if a == [] {
      assert a + b == b;
    } else {
      var ab := a + b;
      assert ab[0] == a[0] && ab[1..] == a[1..] + b;
      RemoveCharConcat(a[1..], b, c);
      var h: string := if a[0] == c then [] else [a[0]];
      var x, y := RemoveChar(a[1..], c), RemoveChar(b, c);
      assert RemoveChar(ab, c) == h + RemoveChar(ab[1..], c);
      assert RemoveChar(ab[1..], c) == x + y;
      assert RemoveChar(a, c) == h + x;
      assert h + (x + y) == (h + x) + y;
    }
  }

  /** Python's `str.isspace()` for one character. */
  predicate IsSpace(c: char) {
    c in Whitespace
  }

  /** The characters `str.isspace()` accepts. */
  const Whitespace: set<char> :=
    {' ', '\t', '\n', '\r', '\U{0B}', '\U{0C}', '\U{1C}', '\U{1D}', '\U{1E}', '\U{1F}',
          '\U{85}', '\U{A0}', '\U{1680}', '\U{2000}', '\U{2001}', '\U{2002}', '\U{2003}',
          '\U{2004}', '\U{2005}', '\U{2006}', '\U{2007}', '\U{2008}', '\U{2009}', '\U{200A}',
          '\U{2028}', '\U{2029}', '\U{202F}', '\U{205F}', '\U{3000}'}

  /** `lead` is `s` without some leading whitespace. */
  predicate LeadCut(s: string, lead: string) {
    EndsWith(s, lead) && forall i :: 0 <= i < |s| - |lead| ==> IsSpace(s[i])
  }

  /** `r` is `s` without some trailing whitespace. */
  predicate TrailCut(s: string, r: string) {
    StartsWith(s, r) && forall i :: |r| <= i < |s| ==> IsSpace(s[i])
  }

  function StripLeading(s: string): (r: string)
    ensures LeadCut(s, r)
    ensures r == [] || !IsSpace(r[0])
  {
    if s != [] && IsSpace(s[0]) then
      var r := StripLeading(s[1..]);
      assert s[|s| - |r|..] == s[1..][|s| - 1 - |r|..];
      assert forall i :: 1 <= i < |s| - |r| ==> s[i] == s[1..][i - 1];
      r
    else s
  }

  function StripTrailing(s: string): (r: string)
    ensures TrailCut(s, r)
    ensures r == [] || !IsSpace(r[|r| - 1])
  {
    if s != [] && IsSpace(s[|s| - 1]) then
      var r := StripTrailing(s[..|s| - 1]);
      assert s[..|r|] == s[..|s| - 1][..|r|];
      assert forall i :: |r| <= i < |s| - 1 ==> s[i] == s[..|s| - 1][i];
      r
    else s
  }

  /** `r` is the slice `s[a..b]` and only whitespace lies outside it. */
  predicate SpaceFramed(s: string, a: int, b: int, r: string) {
    0 <= a <= b <= |s| && r == s[a..b]
    && (forall k :: 0 <= k < a ==> IsSpace(s[k])) && (forall k :: b <= k < |s| ==> IsSpace(s[k]))
  }

  /** Stripping both ends keeps a slice of `s` with only whitespace outside it. */
  lemma StripIsSlice(s: string, lead: string, r: string)
    requires LeadCut(s, lead) && TrailCut(lead, r)
    ensures exists a, b :: SpaceFramed(s, a, b, r)
  {
    var a := |s| - |lead|;
    var b := a + |r|;
    assert lead == s[a..];
    assert r == s[a..b] by {
      assert r == lead[..|r|];
      forall k | 0 <= k < |r|
        ensures r[k] == s[a + k]
      {
        assert r[k] == lead[k];
      }
    }
    assert forall k :: 0 <= k < a ==> IsSpace(s[k]);
    forall k | b <= k < |s|
      ensures IsSpace(s[k])
    {
      assert s[k] == lead[k - a];
      assert |r| <= k - a < |lead|;
    }
    assert SpaceFramed(s, a, b, r);
  }

  /** Python's `s.strip()`: drops leading and trailing whitespace and keeps the middle. */
  function Strip(s: string): (r: string)
    ensures forall x :: x in r ==> x in s
    ensures r == [] || (!IsSpace(r[0]) && !IsSpace(r[|r| - 1]))
    ensures (forall i :: 0 <= i < |s| ==> !IsSpace(s[i])) ==> r == s
    ensures exists a, b :: SpaceFramed(s, a, b, r)
  {
    var lead := StripLeading(s);
    var r := StripTrailing(lead);
    StripIsSlice(s, lead, r);
    StripKeepsChars(s, lead, r);
    StripKeepsSpaceless(s, lead, r);
    r
  }

  /** Both ends only drop characters. */
  lemma StripKeepsChars(s: string, lead: string, r: string)
    requires LeadCut(s, lead) && TrailCut(lead, r)
    ensures forall x :: x in r ==> x in s
  {
    assert forall x :: x in r ==> x in lead by {
      assert r == lead[..|r|];
    }
    assert forall x :: x in lead ==> x in s by {
      assert lead == s[|s| - |lead|..];
    }
  }

  /** A string without whitespace loses nothing at either end. */
  lemma StripKeepsSpaceless(s: string, lead: string, r: string)
    requires LeadCut(s, lead) && TrailCut(lead, r)
    ensures (forall i :: 0 <= i < |s| ==> !IsSpace(s[i])) ==> r == s
  {
    if forall i :: 0 <= i < |s| ==> !IsSpace(s[i]) {
      if |s| > 0 {
        assert !IsSpace(s[0]) && !IsSpace(s[|s| - 1]);
      }
      assert lead == s;
    }
  }

  /** Stripping a string that neither starts nor ends with whitespace leaves it unchanged. */
  lemma StripKeepsStripped(s: string)
    requires s == [] || (!IsSpace(s[0]) && !IsSpace(s[|s| - 1]))
    ensures Strip(s) == s
  {
    var a, b :| SpaceFramed(s, a, b, Strip(s));
    if s != [] {
      assert !IsSpace(s[0]) && !IsSpace(s[|s| - 1]);
      assert a == 0 && b == |s|;
    }
  }

  /** Stripping never creates an occurrence. */
  lemma StripKeepsAbsent(s: string, sub: string)
    requires !Contains(s, sub)
    ensures !Contains(Strip(s), sub)
  {
    var a, b :| SpaceFramed(s, a, b, Strip(s));
    if Contains(s[a..b], sub) {
      ContainsInSlice(s, a, b, sub);
    }
  }

  /**
   * Python's `str.upper()` on the letters it maps one-to-one within Latin-1:
   * `a`-`z`, `à`-`ö` and `ø`-`þ`. Every other character is left unchanged,
   * `µ` and `ÿ` included, whose Python upper cases lie outside Latin-1.
   */
  function UpperChar(c: char): char {
    if 'a' <= c <= 'z' || ('à' <= c <= 'þ' && c != '÷') then (c as int - 32) as char else c
  }

  /** Python's `str.lower()` on `A`-`Z`, `À`-`Ö` and `Ø`-`Þ`; every other character unchanged. */
  function LowerChar(c: char): char {
    if 'A' <= c <= 'Z' || ('À' <= c <= 'Þ' && c != '×') then (c as int + 32) as char else c
  }

  function Upper(s: string): (r: string)
    ensures |r| == |s|
  {
    seq(|s|, i requires 0 <= i < |s| => UpperChar(s[i]))
  }

  function Lower(s: string): (r: string)
    ensures |r| == |s|
  {
    seq(|s|, i requires 0 <= i < |s| => LowerChar(s[i]))
  }

  /** Upper-casing both sides keeps a prefix a prefix. */
  lemma UpperKeepsPrefix(s: string, prefix: string)
    requires StartsWith(s, prefix)
    ensures StartsWith(Upper(s), Upper(prefix))
  {
    forall i | 0 <= i < |prefix|
      ensures Upper(s)[i] == Upper(prefix)[i]
    {
      assert s[i] == s[..|prefix|][i];
    }
  }

  /** Python's `sep.join(parts)`. */
  function Join(sep: string, parts: seq<string>): (r: string)
    ensures forall c :: c in r ==> c in sep || exists k :: 0 <= k < |parts| && c in parts[k]
  {
    if |parts| == 0 then ""
    else if |parts| == 1 then parts[0]
    else
      var tail := Join(sep, parts[1..]);
      assert forall c :: c in tail ==> c in sep || exists k :: 0 <= k < |parts| && c in parts[k] by {
        forall c | c in tail && c !in sep
          ensures exists k :: 0 <= k < |parts| && c in parts[k]
        {
          var k :| 0 <= k < |parts[1..]| && c in parts[1..][k];
          assert c in parts[k + 1];
        }
      }
      parts[0] + sep + tail
  }

  /** Every part occurs in the joined string. */
  lemma {:induction false} JoinContainsParts(sep: string, parts: seq<string>, k: nat)
    requires k < |parts|
    ensures Contains(Join(sep, parts), parts[k])
  {
    var j := Join(sep, parts);
    if |parts| == 1 {
      assert OccursAt(j, parts[k], 0);
    } else if k == 0 {
      assert j[0..|parts[0]|] == parts[0];
      assert OccursAt(j, parts[k], 0);
    } else {
      var tail := Join(sep, parts[1..]);
      JoinContainsParts(sep, parts[1..], k - 1);
      var i :| 0 <= i <= |tail| && OccursAt(tail, parts[k], i);
      var off := |parts[0] + sep|;
      assert j == (parts[0] + sep) + tail;
      assert j[off + i..off + i + |parts[k]|] == tail[i..i + |parts[k]|];
      assert OccursAt(j, parts[k], off + i);
    }
  }

  function DigitChar(d: nat): (c: char)
    requires d < 10
    ensures '0' <= c <= '9' && c as int - '0' as int == d
  {
    ('0' as int + d) as char
  }

  /** The number a string of decimal digits denotes. */
  function DecimalValue(s: string): nat
    requires forall i :: 0 <= i < |s| ==> '0' <= s[i] <= '9'
  {
    if s == [] then 0 else DecimalValue(s[..|s| - 1]) * 10 + (s[|s| - 1] as int - '0' as int)
  }

  /** Python's `str(n)` for a non-negative integer: its decimal digits, no leading zero. */
  function NatToDecimal(n: nat): (r: string)
    ensures |r| >= 1
    ensures forall i :: 0 <= i < |r| ==> '0' <= r[i] <= '9'
    ensures r[0] == '0' ==> n == 0
  {
    if n < 10 then [DigitChar(n)] else NatToDecimal(n / 10) + [DigitChar(n % 10)]
  }

  /** Reading back the digits `str(n)` writes gives `n`. */
  lemma {:induction false} DecimalRoundTrip(n: nat)
    ensures DecimalValue(NatToDecimal(n)) == n
  {
    var r := NatToDecimal(n);
    if n >= 10 {
      DecimalRoundTrip(n / 10);
      assert r[..|r| - 1] == NatToDecimal(n / 10);
    }
  }

  /** Python's `str(i)` for any integer. */
  function IntToDecimal(i: int): (r: string)
    ensures |r| >= 1
    ensures i < 0 <==> r[0] == '-'
  {
    if i < 0 then "-" + NatToDecimal(-i) else NatToDecimal(i)
  }
}

=== FILE: validator.dfy ===
/**
 * `TRMValidator.validate`, `validate_plan` and `format_validation_result`.
 * The rule engine's refusal is final; the review model, when one is loaded,
 * is asked only about calls and plans the rules let through, and can only
 * refuse or add warnings.
 */
module Validator {
  import opened Wrappers
  import opened Text
  import opened Values
  import opened Rules
  import opened Review

  /** `TRM_VALIDATED_ACTIONS`: single calls the review model is asked about. */
  const TrmValidatedActions: seq<string> := ["modify_file", "git_push"]

  /** `HIGH_RISK_ACTIONS`: a plan holding one of these is shown to the review model. */
  const HighRiskActions: seq<string> := ["delete_path", "modify_file", "git_push", "git_workflow"]

  /** One plan step, a dict whose `action` and `args` keys may be missing. */
  datatype Step = Step(action: Option<string>, args: Option<Arguments>)

  /** `step.get("action", "")`. */
  function ActionName(s: Step): string {
    s.action.GetOr("")
  }

  /** `step.get("args", {})`. */
  function StepArgs(s: Step): Arguments {
    s.args.GetOr(map[])
  }

  /** A plan dict: its `steps` key may be missing; `summary` is optional. */
  datatype PlanInput = PlanInput(steps: Option<seq<Step>>, summary: Option<string>)

  datatype CorrectedPlan = CorrectedPlan(steps: seq<Step>, summary: string)

  /** An entry of `blocked_steps`: the 1-based position in the original plan, the action and the reason. */
  datatype BlockedStep = BlockedStep(step: nat, action: string, reason: string)

  datatype PlanVerdict = PlanVerdict(
    approved: bool,
    correctedPlan: Option<CorrectedPlan>,
    blockedSteps: seq<BlockedStep>,
    warnings: seq<string>,
    feedback: string)

  /**
   * A loaded review model: what it answers about one call (tool, arguments,
   * user request) and about a whole plan (its steps, user request). The
   * prompt it is given is determined by these inputs.
   */
  datatype Llm = Llm(
    reviewAction: (string, Arguments, string) -> Reply,
    reviewPlan: (seq<Step>, string) -> Reply)

  // ----- validate -----

  /** `validate(tool_name, arguments, user_request)`, with `llm` the model if one loaded. */
  function Validate(p: Platform, llm: Option<Llm>, tool: string, args: Arguments, request: string)
    : (r: Result<Verdict, Exception>)
    // without a model, or for a tool the model is not asked about, the rules decide alone
    ensures llm.None? || tool !in TrmValidatedActions ==> r == CheckRules(p, tool, args)
    // a rule refusal (or a rule exception) is returned as is, before the model is consulted
    ensures !(CheckRules(p, tool, args).Success? && CheckRules(p, tool, args).value.approved) ==>
      r == CheckRules(p, tool, args)
    // the model never approves what the rules refuse, and the rules' warnings are kept
    ensures r.Success? && r.value.approved ==>
      CheckRules(p, tool, args).Success? && CheckRules(p, tool, args).value.approved
      && StartsWith(r.value.warnings, CheckRules(p, tool, args).value.warnings)
    // a model that cannot be called does not refuse
    ensures llm.Some? && llm.value.reviewAction(tool, args, request).CallFailed? ==>
      (r.Success? <==> CheckRules(p, tool, args).Success?)
      && (r.Success? ==> r.value.approved == CheckRules(p, tool, args).value.approved)
    // a call the rules approve and the model is asked about: the model's refusal
    // is returned as it stands, and its approval adds its warnings after the rules'
    ensures (llm.Some? && tool in TrmValidatedActions
             && CheckRules(p, tool, args).Success? && CheckRules(p, tool, args).value.approved) ==>
      var rv := ReviewAction(llm.value.reviewAction(tool, args, request));
      && r.Success?
      && (r.value.approved <==> rv.approved)
      && (!rv.approved ==> r.value == rv)
      && (rv.approved ==>
            r.value.reason == "" && r.value.warnings == CheckRules(p, tool, args).value.warnings + rv.warnings)
  {
    match CheckRules(p, tool, args)
    case Failure(e) => Failure(e)
    case Success(rule) =>
      if !rule.approved then Success(rule)
      else if llm.Some? && tool in TrmValidatedActions then
        var review := ReviewAction(llm.value.reviewAction(tool, args, request));
        if !review.approved then Success(review)
        else Success(Verdict(true, "", rule.warnings + review.warnings))
      else Success(Verdict(true, "", rule.warnings))
  }

  // ----- validate_plan -----

  /** A check of one step: what `_check_rules` gives for it. */
  type StepChecker = Step -> Result<Verdict, Exception>

  /** `_check_rules(step.get("action", ""), step.get("args", {}))`. */
  function RuleCheck(p: Platform): StepChecker {
    s => CheckRules(p, ActionName(s), StepArgs(s))
  }

  predicate Accepted(check: StepChecker, s: Step) {
    check(s).Success? && check(s).value.approved
  }

  predicate Refused(check: StepChecker, s: Step) {
    check(s).Success? && !check(s).value.approved
  }

  /** The number of steps the check accepts. */
  function NumAccepted(check: StepChecker, steps: seq<Step>): (n: nat)
    ensures n <= |steps|
  {
    if steps == [] then 0
    else NumAccepted(check, steps[..|steps| - 1]) + if Accepted(check, steps[|steps| - 1]) then 1 else 0
  }

  /** What the loop over the steps accumulates. */
  datatype Partition = Partition(kept: seq<Step>, blocked: seq<BlockedStep>, warnings: seq<string>)

  /**
   * The loop over the steps: accepted steps are kept with their warnings,
   * refused ones blocked. Every step lands in one of the two lists, and only
   * steps of the plan are kept.
   */
  function ScanSteps(check: StepChecker, steps: seq<Step>): (r: Result<Partition, Exception>)
    decreases |steps|
    ensures r.Success? ==> |r.value.kept| + |r.value.blocked| == |steps|
    ensures r.Success? ==> forall t :: t in r.value.kept ==> t in steps
  {
    if steps == [] then Success(Partition([], [], []))
    else
      match ScanSteps(check, steps[..|steps| - 1])
      case Failure(e) => Failure(e)
      case Success(prev) =>
        var s := steps[|steps| - 1];
        assert forall t :: t in steps[..|steps| - 1] ==> t in steps;
        match check(s)
        case Failure(e) => Failure(e)
        case Success(v) =>
          if v.approved then Success(Partition(prev.kept + [s], prev.blocked, prev.warnings + v.warnings))
          else Success(Partition(prev.kept, prev.blocked + [BlockedStep(|steps|, ActionName(s), v.reason)], prev.warnings))
  }

  /** The entry `blocked_steps` gets for step `i` (0-based) when the check refuses it. */
  function BlockedEntry(check: StepChecker, steps: seq<Step>, i: nat): BlockedStep
    requires i < |steps| && check(steps[i]).Success?
  {
    BlockedStep(i + 1, ActionName(steps[i]), check(steps[i]).value.reason)
  }

  /** The loop raises exactly when the check of some step raises. */
  lemma {:induction false} ScanStepsRaises(check: StepChecker, steps: seq<Step>)
    ensures ScanSteps(check, steps).Success? <==> forall i :: 0 <= i < |steps| ==> check(steps[i]).Success?
  {
    if steps != [] {
      var n := |steps| - 1;
      ScanStepsRaises(check, steps[..n]);
      assert forall i :: 0 <= i < n ==> steps[..n][i] == steps[i];
    }
  }

  /** Every step lands in exactly one of the two lists. */
  lemma {:induction false} ScanStepsCounts(check: StepChecker, steps: seq<Step>)
    requires ScanSteps(check, steps).Success?
    ensures |ScanSteps(check, steps).value.kept| == NumAccepted(check, steps)
    ensures |ScanSteps(check, steps).value.kept| + |ScanSteps(check, steps).value.blocked| == |steps|
  {
    if steps != [] {
      ScanStepsCounts(check, steps[..|steps| - 1]);
    }
  }

  /** An accepted step sits in the kept list after exactly the accepted steps before it. */
  lemma {:induction false} ScanStepsKeeps(check: StepChecker, steps: seq<Step>, i: nat)
    requires ScanSteps(check, steps).Success?
    requires i < |steps| && Accepted(check, steps[i])
    ensures var kept := ScanSteps(check, steps).value.kept;
      NumAccepted(check, steps[..i]) < |kept| && kept[NumAccepted(check, steps[..i])] == steps[i]
  {
    var n := |steps| - 1;
    var init := steps[..n];
    if i == n {
      ScanStepsCounts(check, init);
    } else {
      ScanStepsKeeps(check, init, i);
      assert init[i] == steps[i];
      assert init[..i] == steps[..i];
    }
  }

  /** A refused step's entry sits in the blocked list after exactly the refused steps before it. */
  lemma {:induction false} ScanStepsBlocks(check: StepChecker, steps: seq<Step>, i: nat)
    requires ScanSteps(check, steps).Success?
    requires i < |steps| && Refused(check, steps[i])
    ensures var blocked := ScanSteps(check, steps).value.blocked;
      var j := i - NumAccepted(check, steps[..i]);
      0 <= j < |blocked| && blocked[j] == BlockedEntry(check, steps, i)
  {
    var n := |steps| - 1;
    var init := steps[..n];
    assert NumAccepted(check, steps[..i]) <= i by {
      assert |steps[..i]| == i;
    }
    if i == n {
      ScanStepsCounts(check, init);
    } else {
      ScanStepsBlocks(check, init, i);
      assert init[i] == steps[i];
      assert init[..i] == steps[..i];
    }
  }

  /**
   * The loop partitions the steps: every step is accepted or refused (when
   * no check raises) and the kept list holds the accepted steps in the plan's
   * order; `ScanStepsBlocksAll` places the refused ones in the blocked list.
   */
  lemma ScanStepsPartitions(check: StepChecker, steps: seq<Step>)
    requires ScanSteps(check, steps).Success?
    ensures |ScanSteps(check, steps).value.kept| == NumAccepted(check, steps)
    ensures |ScanSteps(check, steps).value.kept| + |ScanSteps(check, steps).value.blocked| == |steps|
    ensures forall i :: 0 <= i < |steps| ==> Accepted(check, steps[i]) || Refused(check, steps[i])
    ensures var kept := ScanSteps(check, steps).value.kept;
      forall i :: 0 <= i < |steps| && Accepted(check, steps[i]) ==>
        NumAccepted(check, steps[..i]) < |kept| && kept[NumAccepted(check, steps[..i])] == steps[i]
  {
    var q := ScanSteps(check, steps).value;
    assert |q.kept| == NumAccepted(check, steps) && |q.kept| + |q.blocked| == |steps| by {
      ScanStepsCounts(check, steps);
    }
    assert forall i :: 0 <= i < |steps| ==> Accepted(check, steps[i]) || Refused(check, steps[i]) by {
      ScanStepsDecides(check, steps);
    }
    assert forall i :: 0 <= i < |steps| && Accepted(check, steps[i]) ==>
      NumAccepted(check, steps[..i]) < |q.kept| && q.kept[NumAccepted(check, steps[..i])] == steps[i] by {
      ScanStepsKeepsAll(check, steps);
    }
  }

  /** When no check raises, each step is accepted or refused. */
  lemma ScanStepsDecides(check: StepChecker, steps: seq<Step>)
    requires ScanSteps(check, steps).Success?
    ensures forall i :: 0 <= i < |steps| ==> Accepted(check, steps[i]) || Refused(check, steps[i])
  {
    ScanStepsRaises(check, steps);
  }

  /** Every accepted step is kept, after exactly the accepted steps before it. */
  lemma ScanStepsKeepsAll(check: StepChecker, steps: seq<Step>)
    requires ScanSteps(check, steps).Success?
    ensures var kept := ScanSteps(check, steps).value.kept;
      forall i :: 0 <= i < |steps| && Accepted(check, steps[i]) ==>
        NumAccepted(check, steps[..i]) < |kept| && kept[NumAccepted(check, steps[..i])] == steps[i]
  {
    forall i | 0 <= i < |steps| && Accepted(check, steps[i])
      ensures var kept := ScanSteps(check, steps).value.kept;
        NumAccepted(check, steps[..i]) < |kept| && kept[NumAccepted(check, steps[..i])] == steps[i]
    {
      ScanStepsKeeps(check, steps, i);
    }
  }

  /** Every refused step's entry is in the blocked list, after exactly the refused steps before it. */
  lemma ScanStepsBlocksAll(check: StepChecker, steps: seq<Step>)
    requires ScanSteps(check, steps).Success?
    ensures var blocked := ScanSteps(check, steps).value.blocked;
      forall i :: 0 <= i < |steps| && Refused(check, steps[i]) ==>
        0 <= i - NumAccepted(check, steps[..i]) < |blocked|
        && blocked[i - NumAccepted(check, steps[..i])] == BlockedEntry(check, steps, i)
  {
    forall i | 0 <= i < |steps| && Refused(check, steps[i])
      ensures var blocked := ScanSteps(check, steps).value.blocked;
        0 <= i - NumAccepted(check, steps[..i]) < |blocked|
        && blocked[i - NumAccepted(check, steps[..i])] == BlockedEntry(check, steps, i)
    {
      ScanStepsBlocks(check, steps, i);
    }
  }

  /**
   * `blocked_steps` numbers the refused steps from 1 in strictly increasing
   * order, each entry naming a refused step's action and its rule reason.
   */
  lemma {:induction false} BlockedStepsAscend(check: StepChecker, steps: seq<Step>)
    requires ScanSteps(check, steps).Success?
    ensures var b := ScanSteps(check, steps).value.blocked;
      && (forall k :: 0 <= k < |b| ==>
            1 <= b[k].step <= |steps| && Refused(check, steps[b[k].step - 1])
            && b[k] == BlockedEntry(check, steps, b[k].step - 1))
      && (forall k, l :: 0 <= k < l < |b| ==> b[k].step < b[l].step)
  {
    if steps != [] {
      var n := |steps| - 1;
      var init := steps[..n];
      BlockedStepsAscend(check, init);
      assert forall i :: 0 <= i < n ==> init[i] == steps[i];
    }
  }

  /**
   * The warnings gathered are exactly those of the accepted steps, in step
   * order with repeats: refused steps' warnings are dropped.
   */
  lemma {:induction false} WarningsFromAcceptedSteps(check: StepChecker, steps: seq<Step>)
    requires ScanSteps(check, steps).Success?
    ensures ScanSteps(check, steps).value.warnings == AcceptedWarnings(check, steps)
    ensures var ws := ScanSteps(check, steps).value.warnings;
      forall w :: w in ws <==>
        exists i :: 0 <= i < |steps| && Accepted(check, steps[i]) && w in check(steps[i]).value.warnings
  {
    ScanStepsWarnings(check, steps);
    if steps != [] {
      var n := |steps| - 1;
      var init := steps[..n];
      WarningsFromAcceptedSteps(check, init);
      assert forall i :: 0 <= i < n ==> init[i] == steps[i];
      var ws := ScanSteps(check, steps).value.warnings;
      forall w | exists i :: 0 <= i < |steps| && Accepted(check, steps[i]) && w in check(steps[i]).value.warnings
        ensures w in ws
      {
        var i :| 0 <= i < |steps| && Accepted(check, steps[i]) && w in check(steps[i]).value.warnings;
        if i < n {
          assert init[i] == steps[i];
        }
      }
    }
  }

  /**
   * The warnings of the accepted steps, read front to back: each accepted
   * step's list in turn, repeats kept, refused steps contributing nothing.
   */
  function AcceptedWarnings(check: StepChecker, steps: seq<Step>): seq<string> {
    if steps == [] then []
    else (if Accepted(check, steps[0]) then check(steps[0]).value.warnings else []) + AcceptedWarnings(check, steps[1..])
  }

  /** Appending a step to the plan appends its warnings when it is accepted. */
  lemma {:induction false} AcceptedWarningsSnoc(check: StepChecker, steps: seq<Step>, s: Step)
    ensures AcceptedWarnings(check, steps + [s])
            == AcceptedWarnings(check, steps) + (if Accepted(check, s) then check(s).value.warnings else [])
  {
    var tail := if Accepted(check, s) then check(s).value.warnings else [];
    if steps == [] {
      assert steps + [s] == [s];
      assert AcceptedWarnings(check, [s][1..]) == [];
    } else {
      var h := if Accepted(check, steps[0]) then check(steps[0]).value.warnings else [];
      assert (steps + [s])[0] == steps[0] && (steps + [s])[1..] == steps[1..] + [s];
      AcceptedWarningsSnoc(check, steps[1..], s);
      var x := AcceptedWarnings(check, steps[1..]);
      assert AcceptedWarnings(check, steps + [s]) == h + (x + tail);
      assert h + (x + tail) == (h + x) + tail;
    }
  }

  /**
   * The loop's warnings are the accepted steps' warnings concatenated in
   * step order, with repeats: `result["warnings"].extend(...)` once per
   * accepted step.
   */
  lemma {:induction false} ScanStepsWarnings(check: StepChecker, steps: seq<Step>)
    requires ScanSteps(check, steps).Success?
    ensures ScanSteps(check, steps).value.warnings == AcceptedWarnings(check, steps)
  {
    if steps != [] {
      var n := |steps| - 1;
      ScanStepsWarnings(check, steps[..n]);
      assert steps == steps[..n] + [steps[n]];
      AcceptedWarningsSnoc(check, steps[..n], steps[n]);
    }
  }

  /** `any(step.get("action") in HIGH_RISK_ACTIONS for step in steps)`, over all steps, refused ones included. */
  predicate HasHighRisk(steps: seq<Step>) {
    exists i :: 0 <= i < |steps| && steps[i].action.Some? && steps[i].action.value in HighRiskActions
  }

  const InvalidPlanFeedback: string := "Plan invalide: format incorrect." + " Le plan doit contenir 'steps'."
  const PartialRejectionHeader: string := "\U{26A0}\U{FE0F} PLAN PARTIELLEMENT REJETÉ:\n"
  const WarningsHeader: string := ApprovedMark + " avec avertissements:\n"
  /** The opening shared by both approving feedbacks. */
  const ApprovedMark: string := "\U{2705} Plan validé"
  const ApprovedFeedback: string := ApprovedMark + " - Prêt pour exécution"
  const DefaultSummary: string := "Plan corrigé"
  const DefaultReviewRejection: string := "Plan rejeté par TRM"

  function BlockedLine(b: BlockedStep): string {
    "  \U{274C} Étape " + NatToDecimal(b.step) + " (" + b.action + "): " + b.reason
  }

  function BlockedLines(blocked: seq<BlockedStep>): (lines: seq<string>)
    ensures |lines| == |blocked|
    ensures forall k :: 0 <= k < |blocked| ==> lines[k] == BlockedLine(blocked[k])
  {
    seq(|blocked|, k requires 0 <= k < |blocked| => BlockedLine(blocked[k]))
  }

  function RemainingNote(keptCount: nat): string {
    "Plan corrigé disponible avec " + NatToDecimal(keptCount) + " étapes valides."
  }

  /**
   * The feedback `validate_plan` always rebuilds from the blocked steps and
   * the warnings. It is never empty and opens with the warning sign exactly
   * when steps were blocked.
   */
  function PlanFeedback(blocked: seq<BlockedStep>, keptCount: nat, warnings: seq<string>): (f: string)
    ensures |f| > 0 && (f[0] == '\U{26A0}' <==> blocked != [])
  {
    assert PartialRejectionHeader[0] == '\U{26A0}' && WarningsHeader[0] == '\U{2705}' && ApprovedFeedback[0] == '\U{2705}';
    if blocked != [] then
      PartialRejectionHeader + Join("\n", BlockedLines(blocked)) + "\n\n" + RemainingNote(keptCount)
    else if warnings != [] then
      WarningsHeader + Join("\n", warnings)
    else
      ApprovedFeedback
  }

  /**
   * The feedback opens with the partial rejection header exactly when steps
   * were blocked, and with the success mark otherwise.
   */
  lemma PlanFeedbackOpening(blocked: seq<BlockedStep>, keptCount: nat, warnings: seq<string>)
    ensures var f := PlanFeedback(blocked, keptCount, warnings);
      && (blocked != [] ==> StartsWith(f, PartialRejectionHeader))
      && (blocked == [] ==> StartsWith(f, ApprovedMark))
      && |f| > 0 && (f[0] == '\U{26A0}' <==> blocked != [])
  {
    if blocked != [] {
      OpeningWhenBlocked(blocked, keptCount, warnings);
    } else if warnings != [] {
      OpeningWithWarnings(warnings);
    } else {
      PrefixOfConcat(ApprovedMark, " - Prêt pour exécution");
    }
  }

  lemma OpeningWhenBlocked(blocked: seq<BlockedStep>, keptCount: nat, warnings: seq<string>)
    requires blocked != []
    ensures StartsWith(PlanFeedback(blocked, keptCount, warnings), PartialRejectionHeader)
  {
    var h := PartialRejectionHeader;
    var a := h + Join("\n", BlockedLines(blocked));
    var b := a + "\n\n";
    var f := b + RemainingNote(keptCount);
    assert PlanFeedback(blocked, keptCount, warnings) == f;
    PrefixOfConcat(h, Join("\n", BlockedLines(blocked)));
    PrefixOfConcat(a, "\n\n");
    PrefixOfConcat(b, RemainingNote(keptCount));
    StartsWithTrans(b, a, h);
    StartsWithTrans(f, b, h);
  }

  lemma OpeningWithWarnings(warnings: seq<string>)
    requires warnings != []
    ensures StartsWith(PlanFeedback([], 0, warnings), ApprovedMark)
  {
    var f := PlanFeedback([], 0, warnings);
    var rest := Join("\n", warnings);
    assert f == WarningsHeader + rest;
    PrefixOfConcat(WarningsHeader, rest);
    PrefixOfConcat(ApprovedMark, " avec avertissements:\n");
    StartsWithTrans(f, WarningsHeader, ApprovedMark);
  }

  lemma PrefixOfConcat(a: string, b: string)
    ensures StartsWith(a + b, a)
  {
    assert (a + b)[..|a|] == a;
  }

  /** With blocked steps the feedback lists every one of them and how many steps remain. */
  lemma PlanFeedbackListsBlocked(blocked: seq<BlockedStep>, keptCount: nat, warnings: seq<string>)
    requires blocked != []
    ensures var f := PlanFeedback(blocked, keptCount, warnings);
      && (forall k :: 0 <= k < |blocked| ==> Contains(f, BlockedLine(blocked[k])))
      && Contains(f, RemainingNote(keptCount))
  {
    var lines := BlockedLines(blocked);
    var head := PartialRejectionHeader + Join("\n", lines);
    var f := PlanFeedback(blocked, keptCount, warnings);
    assert f == head + "\n\n" + RemainingNote(keptCount);
    forall k | 0 <= k < |blocked|
      ensures Contains(f, BlockedLine(blocked[k]))
    {
      JoinContainsParts("\n", lines, k);
      ContainsConcat(PartialRejectionHeader, Join("\n", lines), lines[k]);
      ContainsConcat(head, "\n\n", lines[k]);
      ContainsConcat(head + "\n\n", RemainingNote(keptCount), lines[k]);
    }
    ContainsSelf(RemainingNote(keptCount));
    ContainsConcat(head + "\n\n", RemainingNote(keptCount), RemainingNote(keptCount));
  }

  /** Without blocked steps the feedback lists every warning. */
  lemma PlanFeedbackListsWarnings(keptCount: nat, warnings: seq<string>)
    ensures forall k :: 0 <= k < |warnings| ==> Contains(PlanFeedback([], keptCount, warnings), warnings[k])
  {
    if warnings != [] {
      var f := PlanFeedback([], keptCount, warnings);
      assert f == WarningsHeader + Join("\n", warnings);
      forall k | 0 <= k < |warnings|
        ensures Contains(f, warnings[k])
      {
        JoinContainsParts("\n", warnings, k);
        ContainsConcat(WarningsHeader, Join("\n", warnings), warnings[k]);
      }
    }
  }

  /** The review of a rule-clean plan with a high-risk step, when a model is loaded. */
  function PlanReviewOf(llm: Option<Llm>, steps: seq<Step>, request: string, rulesClean: bool): Option<PlanReview> {
    if llm.Some? && HasHighRisk(steps) && rulesClean then Some(ReviewPlan(llm.value.reviewPlan(steps, request)))
    else None
  }

  /**
   * `validate_plan(plan, user_request)`, as written. An approved plan has no
   * blocked step, a corrected plan is never empty, every step ends up either
   * in the corrected plan or among the blocked steps, and there is always
   * some feedback.
   */
  function ValidatePlan(p: Platform, llm: Option<Llm>, plan: Option<PlanInput>, request: string)
    : (r: Result<PlanVerdict, Exception>)
    ensures r.Success? && r.value.approved ==> r.value.blockedSteps == []
    ensures r.Success? && r.value.correctedPlan.Some? ==> r.value.correctedPlan.value.steps != []
    ensures r.Success? && plan.Some? && plan.value.steps.Some? ==>
      |r.value.blockedSteps| + (if r.value.correctedPlan.Some? then |r.value.correctedPlan.value.steps| else 0)
      == |plan.value.steps.value|
    ensures r.Success? ==> r.value.feedback != ""
  {
    if plan.None? || plan.value.steps.None? then
      Success(PlanVerdict(false, None, [], [], InvalidPlanFeedback))
    else
      var steps := plan.value.steps.value;
      match ScanSteps(RuleCheck(p), steps)
      case Failure(e) => Failure(e)
      case Success(q) =>
        var review := PlanReviewOf(llm, steps, request, q.blocked == []);
        var approved := q.blocked == [] && (review.None? || review.value.approved);
        var warnings := q.warnings + if review.Some? && review.value.approved then review.value.warnings else [];
        var corrected := if q.kept != [] then Some(CorrectedPlan(q.kept, plan.value.summary.GetOr(DefaultSummary))) else None;
        Success(PlanVerdict(approved, corrected, q.blocked, warnings, PlanFeedback(q.blocked, |q.kept|, warnings)))
  }

  /** A missing plan or a plan without a `steps` key is refused with the fixed message and nothing else. */
  lemma ValidatePlanStructural(p: Platform, llm: Option<Llm>, plan: Option<PlanInput>, request: string)
    ensures plan.None? || plan.value.steps.None? <==>
      ValidatePlan(p, llm, plan, request) == Success(PlanVerdict(false, None, [], [], InvalidPlanFeedback))
  {
    if !(plan.None? || plan.value.steps.None?) {
      var steps := plan.value.steps.value;
      var r := ValidatePlan(p, llm, plan, request);
      if r.Success? {
        var q := ScanSteps(RuleCheck(p), steps).value;
        PlanFeedbackOpening(q.blocked, |q.kept|, r.value.warnings);
        assert InvalidPlanFeedback[0] == 'P';
      }
    }
  }

  /** An empty `steps` list is approved, with no corrected plan. */
  lemma ValidatePlanEmptySteps(p: Platform, llm: Option<Llm>, summary: Option<string>, request: string)
    ensures ValidatePlan(p, llm, Some(PlanInput(Some([]), summary)), request)
            == Success(PlanVerdict(true, None, [], [], ApprovedFeedback))
  {
    assert !HasHighRisk([]);
  }

  /**
   * For a plan with steps: it raises exactly when a step's rule check does;
   * otherwise the blocked steps and the corrected plan are the loop's
   * partition, the corrected plan is present exactly when some step passed,
   * and the plan is approved only when nothing was blocked.
   */
  lemma ValidatePlanPartitions(p: Platform, llm: Option<Llm>, input: PlanInput, request: string)
    requires input.steps.Some?
    ensures var steps := input.steps.value;
      var r := ValidatePlan(p, llm, Some(input), request);
      && (r.Success? <==> forall i :: 0 <= i < |steps| ==> RuleCheck(p)(steps[i]).Success?)
      && (r.Success? ==>
            var v := r.value;
            var q := ScanSteps(RuleCheck(p), steps).value;
            && v.blockedSteps == q.blocked
            && (v.correctedPlan.Some? <==> NumAccepted(RuleCheck(p), steps) > 0)
            && (v.correctedPlan.Some? ==>
                  v.correctedPlan.value == CorrectedPlan(q.kept, input.summary.GetOr(DefaultSummary)))
            && |v.blockedSteps| + NumAccepted(RuleCheck(p), steps) == |steps|
            && (v.approved ==> v.blockedSteps == []))
  {
    var steps := input.steps.value;
    ScanStepsRaises(RuleCheck(p), steps);
    if ScanSteps(RuleCheck(p), steps).Success? {
      ScanStepsCounts(RuleCheck(p), steps);
    }
  }

  /**
   * The feedback of a plan with steps is rebuilt from the result's own
   * blocked steps and warnings and the number of steps the rules accepted;
   * the warnings are the accepted steps' in step order, followed by an
   * approving review's.
   */
  lemma ValidatePlanFeedback(p: Platform, llm: Option<Llm>, input: PlanInput, request: string)
    requires input.steps.Some? && ValidatePlan(p, llm, Some(input), request).Success?
    ensures var steps := input.steps.value;
      var v := ValidatePlan(p, llm, Some(input), request).value;
      var review := PlanReviewOf(llm, steps, request, v.blockedSteps == []);
      && v.feedback == PlanFeedback(v.blockedSteps, NumAccepted(RuleCheck(p), steps), v.warnings)
      && v.warnings == AcceptedWarnings(RuleCheck(p), steps)
                       + (if review.Some? && review.value.approved then review.value.warnings else [])
  {
    var steps := input.steps.value;
    ScanStepsCounts(RuleCheck(p), steps);
    ScanStepsWarnings(RuleCheck(p), steps);
  }

  /**
   * What `validate_plan`'s feedback shows: with blocked steps, a line for
   * each of them and the number of steps left; without, every warning.
   */
  lemma ValidatePlanFeedbackShows(p: Platform, llm: Option<Llm>, input: PlanInput, request: string)
    requires input.steps.Some? && ValidatePlan(p, llm, Some(input), request).Success?
    ensures var v := ValidatePlan(p, llm, Some(input), request).value;
      && (v.blockedSteps != [] ==>
            && (forall k :: 0 <= k < |v.blockedSteps| ==> Contains(v.feedback, BlockedLine(v.blockedSteps[k])))
            && Contains(v.feedback, RemainingNote(NumAccepted(RuleCheck(p), input.steps.value))))
      && (v.blockedSteps == [] ==> forall k :: 0 <= k < |v.warnings| ==> Contains(v.feedback, v.warnings[k]))
  {
    var v := ValidatePlan(p, llm, Some(input), request).value;
    var n := NumAccepted(RuleCheck(p), input.steps.value);
    ValidatePlanFeedback(p, llm, input, request);
    if v.blockedSteps != [] {
      PlanFeedbackListsBlocked(v.blockedSteps, n, v.warnings);
    } else {
      PlanFeedbackListsWarnings(n, v.warnings);
    }
  }

  /**
   * Whether the model is asked, and what it changes: without a model, or when
   * the model cannot be called, a plan the rules pass whole is approved; the
   * model can only refuse a plan that holds a high-risk step; its warnings
   * are added only to an approved plan; and the feedback always opens with
   * the partial rejection header exactly when steps were blocked.
   */
  lemma ValidatePlanReview(p: Platform, llm: Option<Llm>, input: PlanInput, request: string)
    requires input.steps.Some? && ValidatePlan(p, llm, Some(input), request).Success?
    ensures var steps := input.steps.value;
      var v := ValidatePlan(p, llm, Some(input), request).value;
      var q := ScanSteps(RuleCheck(p), steps).value;
      && (llm.None? ==> (v.approved <==> v.blockedSteps == []) && v.warnings == q.warnings)
      && (llm.Some? && llm.value.reviewPlan(steps, request).CallFailed? ==> (v.approved <==> v.blockedSteps == []))
      && (!HasHighRisk(steps) ==> (v.approved <==> v.blockedSteps == []) && v.warnings == q.warnings)
      && (!v.approved ==> v.warnings == q.warnings)
      && (StartsWith(v.feedback, PartialRejectionHeader) <==> v.blockedSteps != [])
  {
    var steps := input.steps.value;
    var v := ValidatePlan(p, llm, Some(input), request).value;
    var q := ScanSteps(RuleCheck(p), steps).value;
    PlanFeedbackOpening(q.blocked, |q.kept|, v.warnings);
    if StartsWith(v.feedback, PartialRejectionHeader) {
      assert v.feedback[0] == PartialRejectionHeader[0];
    }
  }

  /**
   * `validate_plan` with the review model's refusal kept as the feedback
   * instead of being overwritten by the success line. It agrees with the
   * original on everything but the feedback; a plan refused with no blocked
   * step (so by the model) carries the model's reason, or a default one
   * when that reason is empty. As written, that default is never used, since
   * the plan review's result always holds a `feedback` key.
   */
  function ValidatePlanReportingReview(p: Platform, llm: Option<Llm>, plan: Option<PlanInput>, request: string)
    : (r: Result<PlanVerdict, Exception>)
    ensures r.Success? <==> ValidatePlan(p, llm, plan, request).Success?
    ensures r.Success? ==> r.value.(feedback := "") == ValidatePlan(p, llm, plan, request).value.(feedback := "")
    ensures r.Success? && plan.Some? && plan.value.steps.Some? && r.value.blockedSteps == [] && !r.value.approved ==>
      && llm.Some?
      && var review := ReviewPlan(llm.value.reviewPlan(plan.value.steps.value, request));
      && !review.approved
      && r.value.feedback == (if review.feedback != "" then review.feedback else DefaultReviewRejection)
    ensures r.Success? ==> r.value.feedback != ""
  {
    match ValidatePlan(p, llm, plan, request)
    case Failure(e) => Failure(e)
    case Success(v) =>
      if plan.None? || plan.value.steps.None? then Success(v)
      else
        var steps := plan.value.steps.value;
        var q := ScanSteps(RuleCheck(p), steps).value;
        PlanFeedbackOpening(q.blocked, |q.kept|, v.warnings);
        var review := PlanReviewOf(llm, steps, request, v.blockedSteps == []);
        if review.Some? && !review.value.approved then
          Success(v.(feedback := if review.value.feedback != "" then review.value.feedback else DefaultReviewRejection))
        else Success(v)
  }

  // ----- format_validation_result -----

  /**
   * `format_validation_result`: note that the lines are joined with a
   * backslash and an `n`, not a newline. The text opens with the cross mark
   * exactly for a refusal.
   */
  function FormatValidationResult(v: Verdict): (r: string)
    ensures |r| > 0 && (r[0] == '\U{274C}' <==> !v.approved)
  {
    if !v.approved then "\U{274C} " + v.reason
    else if v.warnings == [] then "\U{2705} Action validée"
    else "\U{2705} Action validée" + "\\n" + Join("\\n", v.warnings)
  }

  /**
   * A refusal shows its reason after the cross mark; an approval opens with
   * the success line and shows every warning; and since the separator is the
   * two characters backslash and `n`, the text has no line break unless a
   * reason or warning brings one.
   */
  lemma FormatValidationResultShows(v: Verdict)
    ensures var f := FormatValidationResult(v);
      && (!v.approved ==> StartsWith(f, "\U{274C} ") && Contains(f, v.reason))
      && (v.approved ==> StartsWith(f, "\U{2705} Action validée"))
      && (v.approved ==> forall k :: 0 <= k < |v.warnings| ==> Contains(f, v.warnings[k]))
      && ('\n' !in v.reason && (forall k :: 0 <= k < |v.warnings| ==> '\n' !in v.warnings[k]) ==> '\n' !in f)
  {
    var f := FormatValidationResult(v);
    if !v.approved {
      ContainsSelf(v.reason);
      ContainsConcat("\U{274C} ", v.reason, v.reason);
    } else if v.warnings != [] {
      var j := Join("\\n", v.warnings);
      forall k | 0 <= k < |v.warnings|
        ensures Contains(f, v.warnings[k])
      {
        JoinContainsParts("\\n", v.warnings, k);
        ContainsConcat("\U{2705} Action validée" + "\\n", j, v.warnings[k]);
      }
    }
  }
}

=== FILE: values.dfy ===
/**
 * Argument values of a tool call. The arguments come from JSON the planning
 * model produced, so a value is a string, a number, a boolean, `null`, a list
 * or an object; the validator only ever asks whether a value is a string and
 * whether it is truthy.
 */
module Values {

  datatype Value =
    | Str(s: string)
    | Int(i: int)
    | Float(f: real)
    | Bool(b: bool)
    | Null
    | List(items: seq<Value>)
    | Dict(entries: map<string, Value>)

  /** The arguments of one tool call: Python's `arguments` dict. */
  type Arguments = map<string, Value>

  /** Python's `bool(v)`: empty strings, zero, `False`, `None` and empty containers are falsy. */
  predicate Truthy(v: Value) {
    match v
    case Str(s) => s != ""
    case Int(i) => i != 0
    case Float(f) => f != 0.0
    case Bool(b) => b
    case Null => false
    case List(items) => items != []
    case Dict(entries) => entries != map[]
  }

  /** Python's `arguments.get(key, default)`. */
  function Get(args: Arguments, key: string, default: Value): Value {
    if key in args then args[key] else default
  }

  /** Python's `key in arguments and arguments[key]`: present and truthy. */
  predicate Provided(args: Arguments, key: string) {
    key in args && Truthy(args[key])
  }
}

=== FILE: wrappers.dfy ===
/** Failure-compatible wrappers shared by the rest of the model. */
module Wrappers {

  /** A value that may be missing: Python's `None` or an absent key. */
  datatype Option<+T> = None | Some(value: T) {

    /** The carried value, or `default` when there is none (Python's `d.get(k, default)`). */
    function GetOr(default: T): T {
      match this
      case Some(v) => v
      case None => default
    }
  }

  /** The outcome of a Python call: the value it returned, or the exception it raised. */
  datatype Result<+R, +E> = Success(value: R) | Failure(error: E)
}
